=== FILE: README.md ===
# astroARIADNE fitter: parameter coordination

This project models, in Dafny, the parameter-coordination layer of the
astroARIADNE SED fitter (`code/fitter.py`). It covers how the fitter:

- reads its engine setup;
- lays out the canonical parameter order of the physical mode (teff, logg,
  z, dist, rad, Av, inflation) and the normalized mode (teff, logg, z, norm,
  Av, inflation);
- keeps a coordinator vector (0 free, 1 fixed) and a parallel vector of
  fixed values, and counts the free dimension;
- chooses a default prior for every parameter from the star's flags and
  values;
- reads a prior file row by row, validating each name and dispatching on
  the prior kind in any letter case;
- assembles a finished run: the samples of each parameter, the median best
  fit, the full best-fit vector, and the best-fit log;
- wraps the log-likelihood for MultiNest and dynesty, so that a sampler sees
  only the free parameters.

Priors are descriptors: the constructor arguments of the scipy.stats
distribution (`Uniform(loc, scale)`, `Normal(loc, scale)`,
`TruncNormal(a, b, loc, scale)`, or an empirical `Table`). Nothing is
evaluated numerically. Python exceptions become the `Errors.Error` variants
of a `Result`.

The fitter calls functions that are defined elsewhere or live in foreign
libraries. The model takes each of them as a parameter:

- the log-likelihood, closed over the star, the interpolators and the mode;
- the isochrone log g estimator;
- `log10`, `exp` and `float` parsing;
- the median, the credibility interval and number formatting;
- dynesty's `resample_equal`.

Modules, in dependency order:

| file | module | what it holds |
|---|---|---|
| wrappers.dfy | `Wrappers`, `Errors` | `Option`, `Result`, and the exceptions the layer raises |
| text.dfy | `Text` | ASCII lower-casing and Python's `str.split` on a separator |
| params.dfy | `Params` | the eight parameter names and the two canonical orders |
| coordinator.dfy | `Coordinator` | the coordinator sum, `get_ndim`, and the walk between free and full vectors |
| setup.dfy | `Setup` | the `setup` and `norm` setters and the `fit` dispatch |
| priors.dfy | `Priors` | prior descriptors, the star record, and `_default_priors` |
| prior_file.dfy | `PriorFile` | `create_priors` |
| fitter.dfy | `Fitter` | `initialize` |
| results.dfy | `Results` | `multinest_results`, `dynesty_results` and `save` |
| adapters.dfy | `Adapters` | `dynesty_log_like` and `multinest_log_like` |

`build_params` is not part of this model. `Coordinator.Expand` stands in
for it. It performs the walk over the order that `save` performs for the
best-fit vector: a fixed slot takes its fixed value and a free slot takes
the next free value. `Coordinator.Extract` is its inverse on vectors that
agree with the fixed values.

Two behaviours follow the code where a reader might expect otherwise:

- The radius fallback `st.uniform(0.1, 10)` uses scipy's (loc, scale)
  convention, loc 0.1 and scale 10, so its support is [0.1, 10.1]. It is
  not [0.1, 10], as the two arguments might suggest.
- `save` stores a fixed parameter's posterior entry as the single fixed
  value, not as a column repeated once per sample.

## Model

| member | source | states |
|---|---|---|
| Setup.SetSetup | code/fitter.py:70-102 | An empty setup raises InputError. A setup fails exactly when it is empty or has more than one but fewer entries than its engine reads (3 for multinest, 7 for dynesty). A one-entry setup takes nlive 500 and dlogz 0.5, plus bound multi, sample rwalk, threads 1 and dynamic False for dynesty. Longer setups are read by position. Attributes the engine does not set keep their earlier values. |
| Setup.ConstructorSetup | code/fitter.py:47 | Setting `['dynesty']` gives the constructor's engine settings, whatever the earlier state. |
| Setup.Dispatch | code/fitter.py:373-402 | `fit` runs MultiNest exactly when the engine is `'multinest'`, with n_dims = n_params = ndim, sampling efficiency 0.8, the setup's dlogz and nlive, basename `<out>multinest/chains`, 100 modes and no resume. Any other engine runs dynesty with the setup's settings. |
| Setup.UnknownEngineRunsDynesty | code/fitter.py:81-102 | A one-entry setup naming an unknown engine is accepted, sets neither engine's fields, and `fit` then runs dynesty with the constructor's settings. |
| Setup.SetNorm | code/fitter.py:114-118 | Intended norm setter: a boolean is stored, and any other value raises InputError with the documented message. |
| Setup.SetNormAsWritten | code/fitter.py:114-118 | Norm setter as written: a non-boolean raises NameError for `rInputError`. |
| Setup.NormSetterMisnamedError | code/fitter.py:116-117 | The two setters agree on booleans and differ on every other value. |
| Params.Order | code/fitter.py:218-228 | The canonical order has 7 names in physical mode and 6 in normalized mode, with no repeats. norm is present iff normalized; dist and rad iff physical; teff, logg, z, Av and inflation always. |
| Params.AvIsSecondToLast | code/fitter.py:219-228 | In both orders Av is the second-to-last name, so index -2 is the Av slot. |
| Params.NameRoundTrip | code/fitter.py:331-335 | The eight accepted names and the parameters correspond one to one. |
| Params.IndexOf | code/fitter.py:364 | The index of a parameter in the order is its first occurrence, and it is None exactly when the parameter is absent. |
| Coordinator.NdimCountsFree | code/fitter.py:254-258 | With 0/1 flags, npars − sum(coordinator) is the number of free slots and lies in [0, npars]. |
| Coordinator.SumCountsFixed | code/fitter.py:257 | With 0/1 flags the coordinator sum counts the fixed slots. |
| Coordinator.FixedSlotLowersCount | code/fitter.py:316-318 | Marking any slot leaves fewer free slots than parameters. |
| Coordinator.Expand | code/fitter.py:495-496 | The full vector has one value per slot, and each fixed slot holds its fixed value. |
| Coordinator.ExpandFreeSlot | code/fitter.py:486-491 | Free slot i of the full vector holds free value number j, where j is the number of free slots before i. This is the running index of `save`'s walk. |
| Coordinator.FreeRankStep | code/fitter.py:487-489 | The running index advances by one on a free slot and stays put on a fixed one. |
| Coordinator.ExtractExpand | code/fitter.py:550-553 | Reading back the free values of an expanded vector gives the free values. |
| Coordinator.ExpandExtract | code/fitter.py:550-553 | A full vector that agrees with the fixed values is the expansion of its own free values. |
| Coordinator.ExpandOneFixed | code/fitter.py:316-318 | With exactly slot k marked, the full vector is the free vector with fixed[k] inserted at k. |
| Priors.StarParams | code/fitter.py:267-276 | The estimator gets Teff iff get_temp, LogL iff get_lum and a luminosity exists (as log10 of value and error), radius iff get_rad and a radius exists, and parallax iff get_plx. Each is stored as (value, error). |
| Priors.BandLoopContents | code/fitter.py:277-286 | Starting from no bands and a map without band keys, a band from mask positions 0,1,2,6,7,8,20,21 (H, J, Ks, G, RP, BP, W1, W2) is used iff its magnitude is nonzero. Each used band is stored as (magnitude, error), and the map's own entries are kept. |
| Priors.EstimatorInputContents | code/fitter.py:267-289 | The estimator is called with exactly the nonzero-magnitude bands, listed in the order H, J, Ks, G, RP, BP, W1, W2 and each once. It also gets their values and the star's own measurements. |
| Priors.AddBandsOrdered | code/fitter.py:282-286 | The band loop only appends a band later in the band list than any already listed, so the used bands stay in band order without repeats. |
| Priors.FixedPriorSupports | code/fitter.py:312-323 | The radius fallback lives on [0.1, 10.1], the norm prior on [0, 1], and the inflation prior on [0, 5] centred at 0.5. |
| Priors.ModeDefaults | code/fitter.py:263-315 | Before extinction is decided, the defaults name teff and z always, logg iff a log g default exists, norm iff normalized, and dist and rad iff physical. |
| Priors.DefaultPriors | code/fitter.py:260-324 | teff, z, Av and inflation always get defaults. With catalogue Av = 0, the Av default is None, coordinator[-2] becomes 1, fixed[-2] becomes 0, and nothing else changes. Otherwise both vectors are untouched. |
| Priors.DefaultPriorsCover | code/fitter.py:260-324 | A parameter has a default iff it is in the mode's order and, for logg, a log g default exists. logg has one iff estimation is off or the estimator returned a value. |
| Priors.DefaultPriorsPolicy | code/fitter.py:263-323 | z is Normal(−0.125, 0.234). teff is Normal(temp, temp_e) iff get_temp, else the teff table. logg is the table when not estimating. When estimating and the estimator returns (value, error), it is Normal(value, error). dist is Normal(dist, dist_e). rad is Normal(rad, rad_e), or the fallback when there is no radius. norm and inflation are the truncated normals. Av is uniform on [0, Av] when Av ≠ 0. |
| Priors.DefaultsFixOnlyAv | code/fitter.py:316-321 | With Av = 0, exactly the Av slot is marked (fixed at 0) and every other slot keeps its value. |
| Priors.DefaultPriorsAsWritten | code/fitter.py:293-299 | Defaults as written: they fail exactly when get_temp is false, with NameError for `teff_prior`. Otherwise teff is Normal(temp, temp_e), and the result is exactly the intended defaults. |
| Priors.TeffFallbackRaises | code/fitter.py:296-299 | Without a measured temperature the code as written raises, where the intended defaults give the teff table. With one, both agree. |
| Text.Split | code/fitter.py:347 | `split(',')` gives at least one piece, and no piece contains the separator. |
| Text.SplitJoin | code/fitter.py:347 | Splitting the join of separator-free pieces gives back the pieces. |
| Text.JoinSplit | code/fitter.py:347 | Joining the pieces of a split with the separator gives back the text. |
| Text.SplitCount | code/fitter.py:347 | A split has one more piece than the text has separators. |
| Text.Lower | code/fitter.py:346 | `lower()` keeps the length and lower-cases each letter. |
| PriorFile.ParseKind | code/fitter.py:346-363 | A kind is recognised iff its lower-cased text is one of uniform, normal, truncatednormal, default or fixed. |
| PriorFile.ParseKindIgnoresCase | code/fitter.py:346 | Lower-casing a kind first does not change how it is read. Every kind name is read as itself. |
| PriorFile.Operands | code/fitter.py:347-357 | Unpacking `bo.split(',')` into n names and applying `float` succeeds iff there are exactly n pieces and each parses. Otherwise it raises ValueError. |
| PriorFile.Validate | code/fitter.py:341-345 | An unknown name raises PriorError(name, 0). dist or rad in normalized mode raises PriorError(name, 1). Otherwise the row names its parameter. |
| PriorFile.ValidateMatchesMode | code/fitter.py:341-345 | A name is accepted iff it names a parameter of the mode's order, or norm. |
| PriorFile.ApplyRow | code/fitter.py:341-366 | Validation comes before the kind: a bad name fails whatever the kind. A row adds at most its own parameter's prior. It never frees a slot, and only a fixed row touches the coordinator or fixed values. An unknown kind changes nothing. |
| PriorFile.UniformRow | code/fitter.py:346-349 | `uniform a,b` stores a uniform prior with support [a, b] and keeps every other prior. |
| PriorFile.NormalRow | code/fitter.py:350-353 | `normal mu,sig` stores Normal(mu, sig). |
| PriorFile.TruncatedNormalRow | code/fitter.py:354-360 | `truncatednormal mu,sig,up,low` stores a truncated normal with loc mu and scale sig on exactly [low, up]. sig = 0 raises ZeroDivisionError. |
| PriorFile.DefaultRow | code/fitter.py:361-362 | `default` copies the parameter's default prior. A parameter with no default raises KeyError. |
| PriorFile.FixedRow | code/fitter.py:363-366 | `fixed v` marks the parameter's slot and stores v there, leaving other slots and all priors alone. A parameter outside the order changes nothing. |
| PriorFile.ApplyRowsOutcome | code/fitter.py:340-367 | A file read to the end had only valid names, and its priors name only listed parameters. |
| PriorFile.ApplyRowsSplit | code/fitter.py:341 | Rows are applied strictly in order: reading a file in two parts is reading it whole. |
| PriorFile.FirstInvalidRowRaises | code/fitter.py:341-345 | The first row with an invalid name raises PriorError for that name, whatever follows it. |
| PriorFile.CreatePriors | code/fitter.py:326-370 | Without a file the priors are the defaults. With one, fixed slots stay fixed and the coordinator stays 0/1. |
| PriorFile.CreatePriorsFromFile | code/fitter.py:336-367 | With a file, the priors start empty: only parameters the file lists have priors, and every name in the file was valid. |
| PriorFile.ZipColumnsAsWritten | code/fitter.py:336-341 | As written, the file's rows go through `loadtxt(unpack=True)` and `zip`. An empty file fails. Two or more rows come back unchanged. A one-row file becomes one row per character position, each name a single character of the row's name. |
| PriorFile.CreatePriorsAsWritten | code/fitter.py:336-370 | As written: no file gives the defaults, an empty file raises ValueError, and two or more rows read exactly as the row reader does. A one-row file is read as its character rows. |
| PriorFile.OneRowFileReadsCharacters | code/fitter.py:336-345 | As written, the file `teff normal 5000,100` raises PriorError('t', 0). The file `z normal -0.1,0.2` succeeds with no prior at all. |
| PriorFile.EmptyFileRaises | code/fitter.py:336-338 | As written, an empty file fails, where reading its rows one by one would give an empty prior map. |
| PriorFile.OneRowFileAppliesRow | code/fitter.py:340-367 | Intended: a one-row file gives exactly what applying that row to a fresh prior map gives. |
| PriorFile.ApplyRowAsWritten | code/fitter.py:354-360 | Row reading as written: the truncated-normal branch always fails (NameError for `priot_dict`). Other kinds behave as intended. |
| PriorFile.TruncatedNormalRowRaisesAsWritten | code/fitter.py:359-360 | Every valid truncated-normal row with nonzero scale fails as written where the intended reading succeeds. |
| Fitter.Initialize | code/fitter.py:201-252 | Without a star, InputError is raised with the documented message. On success, coordinator and fixed match the order, flags are 0/1, and ndim is the number of free slots, in [0, npars]. Av = 0 leaves the Av slot fixed whatever the file says. Without a file the priors are the defaults. With one, they name only listed parameters. Built on the corrected `_default_priors`, row reader and row-wise file reading (see Findings): as written, a star without a measured temperature raises NameError instead, and a one-row or empty file is misread. |
| Fitter.AvFixedWhenCatalogueZero | code/fitter.py:316-321 | With catalogue Av = 0, slot -2 is Av and fewer parameters are sampled than the mode has. Without a file, Av is fixed at 0 with no live prior. |
| Fitter.NoFileFreeParamsHavePriors | code/fitter.py:246-249 | Without a prior file, every free parameter has a live prior whenever a log g default exists. |
| Fitter.AvZeroPhysicalScenario | code/fitter.py:218-258 | Physical mode, Av = 0, no file: order teff, logg, z, dist, rad, Av, inflation, coordinator [0,0,0,0,0,1,0], and ndim 6. Six free values expand to seven with Av = 0 in sixth place. Stated for the corrected `initialize`; as written this holds only for a star with a measured temperature. |
| Results.DropLastColumn | code/fitter.py:534 | `[:, :-1]` keeps every row except its last value: putting the last value back gives the row. |
| Results.MultinestResults | code/fitter.py:529-537 | The samples have ndim columns, equal to the first ndim columns of MultiNest's posterior. The evidence and its error are passed through. |
| Results.DynestyResults | code/fitter.py:539-545 | lnZ and its error are the last entries of their running sequences. The samples are the resampling with weights exp(logwt − lnZ). |
| Results.PosteriorSamples | code/fitter.py:484-491 | Every parameter of the order, and nothing else, gets an entry: the sample column at the free rank if free, else the fixed value. The running column index ends at ndim. |
| Results.SampleLikelihoods | code/fitter.py:492-498 | Each sample's likelihood is the log-likelihood of its full vector. |
| Results.BestFit | code/fitter.py:501-517 | best_fit names exactly the parameters of the order. `best_theta[i] == best_fit[order[i]]`: the median of the free slot's column, or the fixed value. |
| Results.LogLines | code/fitter.py:473-516 | The log is the header, then one line per parameter in order: name, median, upper and lower bound if free; name, fixed value and FIXED if fixed. |
| Results.BestThetaExpandsMedians | code/fitter.py:502-517 | The best-fit vector is the expansion of the column medians. |
| Results.Save | code/fitter.py:448-527 | Everything `save` stores: the evidence, each parameter's samples or value, the per-sample likelihoods, the best fit and best-fit vector (the expansion of the medians), the likelihood of that vector, and the log. |
| Results.BestFitFreeValuesAreMedians | code/fitter.py:502-517 | The free values of the best-fit vector, read back in order, are the column medians. |
| Results.LogLineEndings | code/fitter.py:507-516 | Every log line starts with the parameter name and a tab. A fixed line ends in `FIXED\n`. A free line ends with the lower bound. |
| Adapters.DynestyLogLike | code/fitter.py:550-553 | The value is the log-likelihood of the full vector that agrees with the fixed values and whose free values are the cube. |
| Adapters.MultinestLogLike | code/fitter.py:562-566 | The same for the cube's first ndim values. Anything after them and n_params are ignored. |
| Adapters.WrappersAgree | code/fitter.py:550-566 | The two wrappers agree on the free values, whatever MultiNest appends. |
| Adapters.WrappedVectorKeepsFixed | code/fitter.py:552 | The vector handed to the likelihood has one value per parameter, the fixed values in fixed slots, and the cube as its free values. |
| Adapters.WrapperOfFreeValues | code/fitter.py:550-553 | Wrapping the free values of a vector that agrees with the fixed values gives that vector's log-likelihood. |

## Left out

- File and OS input and output: opening the interpolator and prior-table pickles, the text parsing inside `sp.loadtxt`, `create_dir`, and writing the log and the output pickle. A prior file is modelled as its rows already split into three columns. A missing or empty file name is `None`. The shape `loadtxt` gives a one-row or empty file is modelled (PriorFile.ZipColumnsAsWritten, see Findings). The rest of the model reads a file row by row, as intended.
- Number parsing and formatting: `float` and `'{:.4f}'.format` are opaque functions, and lower-casing covers ASCII letters only.
- scipy numerics: distributions are kept as descriptors and never evaluated. Nonzero-magnitude tests, medians and credibility intervals are exact comparisons or opaque functions.
- Floating point: Python floats are modelled as reals, so every prior descriptor is computed exactly. This covers the uniform scale `b - a`, the truncated-normal bounds `(low - mu) / sig` and `(up - mu) / sig`, the inflation bounds, and `1 / 1e-20` in Priors.NormPrior. Supports such as "exactly [low, up]" hold in real arithmetic and only up to rounding in the source.
- Warnings and console output: `warnings.warn` for the radius fallback (lines 308-311) and for a missing prior file (line 369) are dropped. So are the `print` calls for default setups (line 80) and for log g estimation (line 288). The model keeps the values chosen in those cases, not the messages.
- dynesty's weight computation and `resample_equal`: they are opaque functions passed to Results.DynestyResults.
- Results.DynestyResults: requires non-empty evidence sequences, which is where the source's `[-1]` would raise IndexError.
- Results.Save: takes the run's summary directly. Choosing the MultiNest or dynesty reader (lines 476-479) uses the same engine test as Setup.Dispatch.
- Results.Save: the posterior dictionary's extra `loglike` entry and the best-fit dictionary's extra `likelihood` entry are separate fields of the output. The star and the wall-clock time are not stored.
- Sampler runs: `pymultinest.run`, `Analyzer`, `NestedSampler` and `DynamicNestedSampler`, their process pool, the pool's queue size, and the choice between the static and dynamic dynesty sampler in `fit_dynesty`. These are foreign, concurrent calls. Setup.Dispatch records only the arguments `fit` passes.
- Prior transforms `pt_dynesty` and `pt_multinest`: they forward to `prior_transform_*`, which is not part of this model.
- `build_params`, `log_likelihood`, `credibility_interval`, `estimate`, `display`, `end` and `execution_time` are not part of this model. Coordinator.Expand stands in for `build_params`. The others are parameters.
- The `grid` setter (an assertion and a pickle load), the unimplemented `bma` setter, the `star`, `estimate_logg`, `verbose`, `priorfile` and `out_folder` setters (type checks only), and the deprecated `log_prob`.
- Priors.HasBands: the star's magnitude arrays are required to have the catalogue's 24 entries when log g is estimated, rather than raising on a shorter array.
- Setup.SetSetup: in the source, a setup that fails with IndexError has already replaced the stored setup and engine. It has also assigned every engine attribute read before the missing index: `_nlive` for `['multinest', n]`; for dynesty, each of `_nlive`, `_dlogz`, `_bound`, `_sample` and `_threads` whose entry precedes the missing one (a 4-entry setup leaves `_nlive`, `_dlogz` and `_bound` set). The model returns only the error, not this partly updated state.
- PriorFile.FixParam: the source marks the slot (`coordinator[idx] = 1`) before `float(bo)` can raise. The model parses first and, on ValueError, returns only the error. The slot that the source has already marked is not modelled.
- PriorFile.CreatePriors: the source updates the fitter's coordinator and fixed vectors in place, so a row that raises leaves the `fixed` rows before it applied. This covers PriorError, ValueError, KeyError and ZeroDivisionError, and NameError as written. The model returns only the first error, not this partly updated state.
- Fitter.Initialize: a failing `create_priors` leaves the fitter and the module globals partly updated. By then `star`, `interpolators`, `use_norm`, `order` and the output folder are set, as are the zeroed and Av-adjusted `coordinator` and `fixed` and `default_priors` (lines 209-247). The partial prior-file effects above also remain. The model returns only the error.
- Fitter.Initialize: the output-folder default (star name plus `/`) and the directory creation are I/O. The module-level globals it publishes are the `Adapters.Context`.

## Findings

| source | as written | input that shows it | evidently intended | confidence | as-written member | corrected member |
|---|---|---|---|---|---|---|
| code/fitter.py:299 | Without a measured temperature, `_default_priors` reads `teff_prior['teff']`, a name that is never defined. | any star with `get_temp` false | use the teff table just loaded from the pickle | not executed | Priors.DefaultPriorsAsWritten, Priors.TeffFallbackRaises | Priors.DefaultPriors, Priors.DefaultPriorsPolicy |
| code/fitter.py:359 | The truncated-normal branch of `create_priors` assigns to `priot_dict`, which is undefined, so NameError is raised. | a prior file row `teff truncatednormal 5000,100,6000,4000` | store the truncated normal in `prior_dict[par]` | not executed | PriorFile.ApplyRowAsWritten, PriorFile.TruncatedNormalRowRaisesAsWritten | PriorFile.ApplyRow, PriorFile.TruncatedNormalRow |
| code/fitter.py:117 | The norm setter's error branch calls `rInputError`, which is undefined, so NameError is raised instead of InputError. | `fitter.norm = 1` | raise InputError('norm must be True or False.') | not executed | Setup.SetNormAsWritten, Setup.NormSetterMisnamedError | Setup.SetNorm |
| code/fitter.py:337 | `sp.loadtxt(..., unpack=True)` squeezes a one-row prior file to three strings, so `zip` at line 341 pairs up their characters. An empty file leaves nothing to unpack into `param, prior, bounds`. | a prior file holding only `teff normal 5000,100` (raises PriorError('t', 0)); one holding only `z normal -0.1,0.2` (silently sets no prior); an empty file (ValueError) | read each line of the file as one (name, kind, bounds) row, e.g. with `ndmin=2` | not executed | PriorFile.ZipColumnsAsWritten, PriorFile.CreatePriorsAsWritten, PriorFile.OneRowFileReadsCharacters, PriorFile.EmptyFileRaises | PriorFile.CreatePriors, PriorFile.OneRowFileAppliesRow |

=== FILE: adapters.dfy ===
/**
  The sampler-facing log-likelihood wrappers. A sampler proposes values for
  the free parameters only; each wrapper expands them into the full
  parameter vector, with the fixed values in their slots, before calling the
  log-likelihood. The log-likelihood itself, closed over the star and the
  interpolators, is a parameter.
*/
module Adapters {
  import opened Params
  import opened Coordinator

  /** The module-level state `initialize` publishes for the wrappers. */
  datatype Context = Context(coord: seq<int>, fixed: seq<real>)

  predicate Valid(ctx: Context) {
    |ctx.coord| == |ctx.fixed|
  }

  /** `theta` is a full vector with the fixed values in place and `free` as its free values. */
  predicate Represents(theta: seq<real>, free: seq<real>, ctx: Context)
    requires Valid(ctx)
  {
    |theta| == |ctx.coord| && AgreesOnFixed(theta, ctx.coord, ctx.fixed) && Extract(theta, ctx.coord) == free
  }

  /**
    `dynesty_log_like`: the likelihood of the full vector whose free values
    are `cube` — that is, of the unique vector that agrees with the fixed
    values and whose free values, read back in order, are `cube`.
  */
  function DynestyLogLike(cube: seq<real>, ctx: Context, logLike: seq<real> -> real): (r: real)
    requires Valid(ctx) && |cube| == CountFree(ctx.coord)
    ensures forall theta :: Represents(theta, cube, ctx) ==> r == logLike(theta)
  {
    var theta := Expand(cube, ctx.coord, ctx.fixed);
    assert forall t :: Represents(t, cube, ctx) ==> t == theta by {
      forall t | Represents(t, cube, ctx) ensures t == theta {
        ExpandExtract(t, ctx.coord, ctx.fixed);
      }
    }
    logLike(theta)
  }

  /**
    `multinest_log_like`: MultiNest hands over a cube that may be longer than
    the free dimension; only its first `ndim` values are read, and `nparams`
    is ignored.
  */
  function MultinestLogLike(cube: seq<real>, ndim: nat, nparams: nat, ctx: Context,
                            logLike: seq<real> -> real): (r: real)
    requires Valid(ctx) && ndim == CountFree(ctx.coord) && ndim <= |cube|
    ensures forall theta :: Represents(theta, cube[..ndim], ctx) ==> r == logLike(theta)
  {
    DynestyLogLike(cube[..ndim], ctx, logLike)
  }

  /** The two wrappers agree on the free values, whatever MultiNest appends and whatever `nparams` is. */
  lemma WrappersAgree(free: seq<real>, tail: seq<real>, nparams: nat, ctx: Context, logLike: seq<real> -> real)
    requires Valid(ctx) && |free| == CountFree(ctx.coord)
    ensures MultinestLogLike(free + tail, |free|, nparams, ctx, logLike) == DynestyLogLike(free, ctx, logLike)
  {
    assert (free + tail)[..|free|] == free;
  }

  /** Every vector the wrappers hand to the likelihood carries the fixed values in the fixed slots. */
  lemma WrappedVectorKeepsFixed(cube: seq<real>, ctx: Context)
    requires Valid(ctx) && |cube| == CountFree(ctx.coord)
    ensures Represents(Expand(cube, ctx.coord, ctx.fixed), cube, ctx)
  {
    ExtractExpand(cube, ctx.coord, ctx.fixed);
  }

  /** Round trip: wrapping the free values of a vector that agrees with the fixed values gives its likelihood. */
  lemma WrapperOfFreeValues(theta: seq<real>, ctx: Context, logLike: seq<real> -> real)
    requires Valid(ctx) && |theta| == |ctx.coord| && AgreesOnFixed(theta, ctx.coord, ctx.fixed)
    ensures DynestyLogLike(Extract(theta, ctx.coord), ctx, logLike) == logLike(theta)
  {
    ExpandExtract(theta, ctx.coord, ctx.fixed);
  }
}

=== FILE: coordinator.dfy ===
/**
  The coordinator and fixed vectors: one entry per slot of the canonical
  order; a coordinator entry of 0 marks a free (sampled) parameter and any
  other value a fixed one, whose value is the fixed-vector entry. A sampler
  sees only the free parameters, in canonical order.
*/
module Coordinator {
  import opened Params

  /** `sp.zeros(n)` for the coordinator. */
  function Zeros(n: nat): (z: seq<int>)
    ensures |z| == n
    ensures forall i :: 0 <= i < n ==> z[i] == 0
  {
    seq(n, _ => 0)
  }

  /** `sp.zeros(n)` for the fixed values. */
  function RealZeros(n: nat): (z: seq<real>)
    ensures |z| == n
    ensures forall i :: 0 <= i < n ==> z[i] == 0.0
  {
    seq(n, _ => 0.0)
  }

  /** Every coordinator entry is a 0/1 flag. */
  predicate ZeroOne(coord: seq<int>) {
    forall i :: 0 <= i < |coord| ==> coord[i] == 0 || coord[i] == 1
  }

  /** `coordinator.sum()`. */
  function Sum(coord: seq<int>): int {
    if |coord| == 0 then 0 else coord[0] + Sum(coord[1..])
  }

  /** The number of free slots. */
  function CountFree(coord: seq<int>): (n: nat)
    ensures n <= |coord|
  {
    if |coord| == 0 then 0 else (if coord[0] == 0 then 1 else 0) + CountFree(coord[1..])
  }

  /** The number of free slots before slot `i`: the sample column a free slot `i` reads. */
  function FreeRank(coord: seq<int>, i: nat): nat
    requires i <= |coord|
  {
    CountFree(coord[..i])
  }

  /** `get_ndim`: the parameter count of the mode less the number of fixed slots. */
  function GetNdim(norm: bool, coord: seq<int>): int {
    NPars(norm) - Sum(coord)
  }

  /** With 0/1 flags, the sum counts the fixed slots. */
  lemma {:induction false} SumCountsFixed(coord: seq<int>)
    requires ZeroOne(coord)
    ensures Sum(coord) + CountFree(coord) == |coord|
  {
    if |coord| > 0 {
      assert ZeroOne(coord[1..]) by {
        forall i | 0 <= i < |coord[1..]| ensures coord[1..][i] == 0 || coord[1..][i] == 1 {
          assert coord[1..][i] == coord[i + 1];
        }
      }
      SumCountsFixed(coord[1..]);
    }
  }

  /** The free dimension is the number of free slots, between 0 and the parameter count. */
  lemma {:induction false} NdimCountsFree(norm: bool, coord: seq<int>)
    requires |coord| == NPars(norm) && ZeroOne(coord)
    ensures GetNdim(norm, coord) == CountFree(coord)
    ensures 0 <= GetNdim(norm, coord) <= NPars(norm)
  {
    SumCountsFixed(coord);
  }

  lemma {:induction false} CountFreeConcat(a: seq<int>, b: seq<int>)
    ensures CountFree(a + b) == CountFree(a) + CountFree(b)
    decreases |a|
  {
    if |a| > 0 {
      assert (a + b)[1..] == a[1..] + b;
      CountFreeConcat(a[1..], b);
    } else {
      assert a + b == b;
    }
  }

  /** Walking one slot further adds one to the rank exactly when the slot is free. */
  lemma {:induction false} FreeRankStep(coord: seq<int>, i: nat)
    requires i < |coord|
    ensures FreeRank(coord, i + 1) == FreeRank(coord, i) + (if coord[i] == 0 then 1 else 0)
    ensures FreeRank(coord, i + 1) <= CountFree(coord)
  {
    assert coord[..i + 1] == coord[..i] + [coord[i]];
    CountFreeConcat(coord[..i], [coord[i]]);
    assert coord == coord[..i + 1] + coord[i + 1..];
    CountFreeConcat(coord[..i + 1], coord[i + 1..]);
  }

  /** Walking the whole order counts every free slot. */
  lemma {:induction false} FreeRankAll(coord: seq<int>)
    ensures FreeRank(coord, |coord|) == CountFree(coord)
  {
    assert coord[..|coord|] == coord;
  }

  /** A free slot reads a column that exists. */
  lemma {:induction false} FreeRankBound(coord: seq<int>, i: nat)
    requires i < |coord| && coord[i] == 0
    ensures FreeRank(coord, i) < CountFree(coord)
  {
    FreeRankStep(coord, i);
  }

  /** A marked slot leaves fewer free slots than the coordinator has. */
  lemma {:induction false} FixedSlotLowersCount(coord: seq<int>, i: nat)
    requires i < |coord| && coord[i] != 0
    ensures CountFree(coord) < |coord|
  {
    if i > 0 {
      FixedSlotLowersCount(coord[1..], i - 1);
    }
  }

  /**
    The full parameter vector: walking the canonical order, a fixed slot takes
    its fixed value and a free slot the next unused free value.
  */
  function Expand(free: seq<real>, coord: seq<int>, fixed: seq<real>): (theta: seq<real>)
    requires |coord| == |fixed| && |free| == CountFree(coord)
    ensures |theta| == |coord|
    ensures forall i :: 0 <= i < |coord| && coord[i] != 0 ==> theta[i] == fixed[i]
    decreases |coord|
  {
    if |coord| == 0 then []
    else if coord[0] == 0 then [free[0]] + Expand(free[1..], coord[1..], fixed[1..])
    else [fixed[0]] + Expand(free, coord[1..], fixed[1..])
  }

  /** The free values of a full vector, in canonical order. */
  function Extract(theta: seq<real>, coord: seq<int>): (free: seq<real>)
    requires |theta| == |coord|
    ensures |free| == CountFree(coord)
    decreases |coord|
  {
    if |coord| == 0 then []
    else (if coord[0] == 0 then [theta[0]] else []) + Extract(theta[1..], coord[1..])
  }

  /** Free slot `i` of the full vector holds free value number `FreeRank(coord, i)`. */
  lemma {:induction false} ExpandFreeSlot(free: seq<real>, coord: seq<int>, fixed: seq<real>, i: nat)
    requires |coord| == |fixed| && |free| == CountFree(coord)
    requires i < |coord| && coord[i] == 0
    ensures FreeRank(coord, i) < |free|
    ensures Expand(free, coord, fixed)[i] == free[FreeRank(coord, i)]
    decreases i
  {
    FreeRankBound(coord, i);
    if i > 0 {
      assert coord[..i][1..] == coord[1..][..i - 1];
      if coord[0] == 0 {
        ExpandFreeSlot(free[1..], coord[1..], fixed[1..], i - 1);
      } else {
        ExpandFreeSlot(free, coord[1..], fixed[1..], i - 1);
      }
    }
  }

  /** Extracting the free values of an expanded vector gives back the free vector. */
  lemma {:induction false} ExtractExpand(free: seq<real>, coord: seq<int>, fixed: seq<real>)
    requires |coord| == |fixed| && |free| == CountFree(coord)
    ensures Extract(Expand(free, coord, fixed), coord) == free
    decreases |coord|
  {
    if |coord| > 0 {
      var theta := Expand(free, coord, fixed);
      if coord[0] == 0 {
        ExtractExpand(free[1..], coord[1..], fixed[1..]);
        assert theta[1..] == Expand(free[1..], coord[1..], fixed[1..]);
        assert free == [free[0]] + free[1..];
      } else {
        ExtractExpand(free, coord[1..], fixed[1..]);
        assert theta[1..] == Expand(free, coord[1..], fixed[1..]);
      }
    }
  }

  /** A full vector agrees with the fixed values on every fixed slot. */
  predicate AgreesOnFixed(theta: seq<real>, coord: seq<int>, fixed: seq<real>)
    requires |theta| == |coord| == |fixed|
  {
    forall i :: 0 <= i < |coord| && coord[i] != 0 ==> theta[i] == fixed[i]
  }

  /** A full vector that agrees with the fixed values is the expansion of its free values. */
  lemma {:induction false} ExpandExtract(theta: seq<real>, coord: seq<int>, fixed: seq<real>)
    requires |theta| == |coord| == |fixed|
    requires AgreesOnFixed(theta, coord, fixed)
    ensures Expand(Extract(theta, coord), coord, fixed) == theta
    decreases |coord|
  {
    if |coord| > 0 {
      assert AgreesOnFixed(theta[1..], coord[1..], fixed[1..]) by {
        forall i | 0 <= i < |coord[1..]| && coord[1..][i] != 0
          ensures theta[1..][i] == fixed[1..][i]
        {
          assert coord[i + 1] != 0;
        }
      }
      ExpandExtract(theta[1..], coord[1..], fixed[1..]);
      var rest := Extract(theta[1..], coord[1..]);
      if coord[0] == 0 {
        assert Extract(theta, coord) == [theta[0]] + rest;
        assert ([theta[0]] + rest)[1..] == rest;
      } else {
        assert Extract(theta, coord) == rest;
      }
      assert theta == [theta[0]] + theta[1..];
    }
  }

  /** With every slot free, the full vector is the free vector. */
  lemma {:induction false} ExpandAllFree(free: seq<real>, coord: seq<int>, fixed: seq<real>)
    requires |coord| == |fixed| == |free|
    requires forall i :: 0 <= i < |coord| ==> coord[i] == 0
    ensures CountFree(coord) == |free|
    ensures Expand(free, coord, fixed) == free
    decreases |coord|
  {
    if |coord| > 0 {
      ExpandAllFree(free[1..], coord[1..], fixed[1..]);
      assert free == [free[0]] + free[1..];
    }
  }

  /** With exactly slot `k` marked, the full vector is the free vector with `fixed[k]` inserted at `k`. */
  lemma {:induction false} ExpandOneFixed(free: seq<real>, coord: seq<int>, fixed: seq<real>, k: nat)
    requires |coord| == |fixed| == |free| + 1 && k < |coord|
    requires coord[k] != 0
    requires forall i :: 0 <= i < |coord| && i != k ==> coord[i] == 0
    ensures CountFree(coord) == |free|
    ensures Expand(free, coord, fixed) == free[..k] + [fixed[k]] + free[k..]
    decreases k
  {
    if k == 0 {
      ExpandAllFree(free, coord[1..], fixed[1..]);
      assert free[..0] + [fixed[0]] + free[0..] == [fixed[0]] + free;
    } else {
      ExpandOneFixed(free[1..], coord[1..], fixed[1..], k - 1);
      assert free[1..][..k - 1] + [fixed[k]] + free[1..][k - 1..] == (free[..k] + [fixed[k]] + free[k..])[1..];
      assert free[..k] + [fixed[k]] + free[k..] == [free[0]] + (free[..k] + [fixed[k]] + free[k..])[1..];
    }
  }
}

=== FILE: fitter.dfy ===
/**
  `Fitter.initialize`: the canonical order of the mode, fresh coordinator
  and fixed vectors, the default priors, the prior file applied on top, and
  the free dimension.
*/
module Fitter {
  import opened Wrappers
  import opened Errors
  import opened Params
  import opened Coordinator
  import opened Priors
  import opened PriorFile

  /** What `initialize` leaves on the fitter. */
  datatype Fit = Fit(
    order: seq<Param>,
    coord: seq<int>,
    fixed: seq<real>,
    defaults: map<Param, Option<Prior>>,
    priors: map<Param, Option<Prior>>,
    ndim: int)

  const NoStarMessage: string := "No star is detected. Please create an instance of Star."

  /** The shape every initialized fitter has. */
  predicate WellFormed(f: Fit, norm: bool) {
    && f.order == Order(norm)
    && |f.coord| == |f.order|
    && |f.fixed| == |f.order|
    && ZeroOne(f.coord)
    && f.ndim == CountFree(f.coord)
    && 0 <= f.ndim <= |f.order|
  }

  /** The zeroed coordinator and fixed vectors of a mode, before any prior is set. */
  function Start(norm: bool): (st: PriorSetup)
    ensures Shaped(st, norm) && ZeroOne(st.coord)
    ensures forall i :: 0 <= i < NPars(norm) ==> st.coord[i] == 0 && st.fixed[i] == 0.0
  {
    PriorSetup(map[], Zeros(NPars(norm)), RealZeros(NPars(norm)))
  }

  /**
    The defaults for a star, computed on fresh vectors: only the extinction
    slot, second to last, can be marked, and it is marked (at 0, with no live
    prior) exactly when the catalogue extinction is 0.
  */
  function Defaults(star: Star, norm: bool, estimateLogg: bool, estimate: Estimator,
                    log10: real -> real): (d: PriorSetup)
    requires estimateLogg ==> HasBands(star)
    ensures Shaped(d, norm) && ZeroOne(d.coord)
    ensures forall i :: 0 <= i < NPars(norm) && i != NPars(norm) - 2 ==> d.coord[i] == 0 && d.fixed[i] == 0.0
    ensures d.coord[NPars(norm) - 2] == (if star.av == 0.0 then 1 else 0)
    ensures d.fixed[NPars(norm) - 2] == 0.0
    ensures star.av == 0.0 ==> Av in d.priors && d.priors[Av].None?
  {
    var d := DefaultPriors(star, norm, estimateLogg, estimate, log10, Start(norm));
    assert ZeroOne(d.coord) by {
      forall i | 0 <= i < |d.coord| ensures d.coord[i] == 0 || d.coord[i] == 1 {
        if i != NPars(norm) - 2 {
          assert d.coord[i] == Start(norm).coord[i];
        }
      }
    }
    d
  }

  /**
    `initialize`: fails without a star, or with the first error of the prior
    file. A catalogue extinction of 0 keeps extinction fixed whatever the
    prior file says, so it is never sampled.

    This is `initialize` built on the corrected `_default_priors` (teff table
    fallback) and the corrected prior-file row reader (truncated normal stored
    in the prior map). As written, every star without a measured temperature
    makes it raise `NameError` (`Priors.DefaultPriorsAsWritten`), so the
    promise of success without a prior file holds for the intended program.
    A prior file is read row by row, also as intended; the one-row and empty
    files the code as written misreads are `PriorFile.CreatePriorsAsWritten`.
  */
  function Initialize(star: Option<Star>, norm: bool, estimateLogg: bool, priorFile: Option<seq<PriorFile.Row>>,
                      estimate: Estimator, log10: real -> real, parseFloat: FloatParser): (r: Result<Fit, Error>)
    requires star.Some? && estimateLogg ==> HasBands(star.value)
    ensures star.None? ==> r == Failure(InputError(NoStarMessage))
    ensures r.Success? ==> WellFormed(r.value, norm)
    ensures r.Success? ==> r.value.defaults == Defaults(star.value, norm, estimateLogg, estimate, log10).priors
    ensures r.Success? && star.value.av == 0.0 ==> r.value.coord[NPars(norm) - 2] == 1
    ensures star.Some? && priorFile.None? ==>
      && r.Success?
      && r.value.priors == r.value.defaults
      && r.value.coord == Defaults(star.value, norm, estimateLogg, estimate, log10).coord
      && r.value.fixed == Defaults(star.value, norm, estimateLogg, estimate, log10).fixed
    ensures r.Success? && priorFile.Some? ==> forall p :: p in r.value.priors ==> Listed(priorFile.value, p)
  {
    if star.None? then Failure(InputError(NoStarMessage))
    else
      var d := Defaults(star.value, norm, estimateLogg, estimate, log10);
      var p :- CreatePriors(priorFile, d, norm, parseFloat);
      NdimCountsFree(norm, p.coord);
      if priorFile.Some? then
        CreatePriorsFromFile(priorFile.value, d, norm, parseFloat);
        Success(Fit(Order(norm), p.coord, p.fixed, d.priors, p.priors, GetNdim(norm, p.coord)))
      else
        Success(Fit(Order(norm), p.coord, p.fixed, d.priors, p.priors, GetNdim(norm, p.coord)))
  }

  /**
    With catalogue extinction 0 the extinction slot is marked, so fewer
    parameters are sampled than the mode has; without a prior file it is
    fixed at 0 and has no live prior.
  */
  lemma AvFixedWhenCatalogueZero(star: Star, norm: bool, estimateLogg: bool, priorFile: Option<seq<PriorFile.Row>>,
                                 estimate: Estimator, log10: real -> real, parseFloat: FloatParser)
    requires estimateLogg ==> HasBands(star)
    requires star.av == 0.0
    ensures var r := Initialize(Some(star), norm, estimateLogg, priorFile, estimate, log10, parseFloat);
      r.Success? ==>
        && r.value.order[NPars(norm) - 2] == Av
        && r.value.ndim < NPars(norm)
        && (priorFile.None? ==> r.value.fixed[NPars(norm) - 2] == 0.0 && r.value.priors[Av].None?)
  {
    AvIsSecondToLast(norm);
    var r := Initialize(Some(star), norm, estimateLogg, priorFile, estimate, log10, parseFloat);
    if r.Success? {
      FixedSlotLowersCount(r.value.coord, NPars(norm) - 2);
    }
  }

  /**
    Without a prior file every free parameter has a live prior, provided the
    log g default exists (no estimation, or an estimate was returned).
  */
  lemma NoFileFreeParamsHavePriors(star: Star, norm: bool, estimateLogg: bool,
                                   estimate: Estimator, log10: real -> real, parseFloat: FloatParser, i: nat)
    requires estimateLogg ==> HasBands(star)
    requires LoggDefault(star, estimateLogg, estimate, log10).Some?
    ensures var r := Initialize(Some(star), norm, estimateLogg, None, estimate, log10, parseFloat);
      r.Success? &&
      (i < NPars(norm) && r.value.coord[i] == 0 ==>
        r.value.order[i] in r.value.priors && r.value.priors[r.value.order[i]].Some?)
  {
    var r := Initialize(Some(star), norm, estimateLogg, None, estimate, log10, parseFloat);
    if i < NPars(norm) && r.value.coord[i] == 0 {
      var p := Order(norm)[i];
      DefaultPriorsCover(star, norm, estimateLogg, estimate, log10, Start(norm), p);
      DefaultPriorsPolicy(star, norm, estimateLogg, estimate, log10, Start(norm));
      AvIsSecondToLast(norm);
      if p == Logg && estimateLogg {
        var e := LoggDefault(star, estimateLogg, estimate, log10).value;
        assert e.Normal?;
      }
    }
  }

  /**
    The documented scenario: physical mode, catalogue extinction 0, no prior
    file. Only extinction is fixed, six parameters are free, and a six-value
    free vector expands to seven values with extinction 0 in sixth place.
    Stated for the corrected `initialize`; the code as written reaches it only
    for a star with a measured temperature.
  */
  lemma AvZeroPhysicalScenario(star: Star, estimate: Estimator, log10: real -> real,
                               parseFloat: FloatParser, free: seq<real>)
    requires star.av == 0.0 && |free| == 6
    ensures var r := Initialize(Some(star), false, false, None, estimate, log10, parseFloat);
      && r.Success?
      && r.value.order == [Teff, Logg, Z, Dist, Rad, Av, Inflation]
      && r.value.coord == [0, 0, 0, 0, 0, 1, 0]
      && r.value.ndim == 6
      && |free| == CountFree(r.value.coord)
      && Expand(free, r.value.coord, r.value.fixed) == free[..5] + [0.0] + free[5..]
  {
    var r := Initialize(Some(star), false, false, None, estimate, log10, parseFloat);
    var d := Defaults(star, false, false, estimate, log10);
    var c := r.value.coord;
    assert c == d.coord;
    assert c[5] == 1;
    assert forall i :: 0 <= i < 7 && i != 5 ==> c[i] == 0;
    ExpandOneFixed(free, c, r.value.fixed, 5);
    assert r.value.fixed[5] == 0.0;
    assert c == [0, 0, 0, 0, 0, 1, 0];
  }
}

=== FILE: params.dfy ===
/**
  Parameter names and the canonical parameter order of the two fitting
  modes: physical (distance and radius) and normalized (a normalization
  constant instead of distance and radius).
*/
module Params {
  import opened Wrappers

  /** The eight parameters a prior file may name. */
  datatype Param = Teff | Logg | Z | Dist | Rad | Norm | Av | Inflation

  /** The name of a parameter as it appears in prior files and results. */
  function Name(p: Param): string {
    match p
    case Teff => "teff"
    case Logg => "logg"
    case Z => "z"
    case Dist => "dist"
    case Rad => "rad"
    case Norm => "norm"
    case Av => "Av"
    case Inflation => "inflation"
  }

  /** The membership test of a prior-file name against the eight known names (case-sensitive). */
  function ParseName(s: string): (r: Option<Param>)
    ensures r.Some? ==> Name(r.value) == s
    ensures r.None? ==> forall p: Param :: Name(p) != s
  {
    if s == "teff" then Some(Teff)
    else if s == "logg" then Some(Logg)
    else if s == "z" then Some(Z)
    else if s == "dist" then Some(Dist)
    else if s == "rad" then Some(Rad)
    else if s == "norm" then Some(Norm)
    else if s == "Av" then Some(Av)
    else if s == "inflation" then Some(Inflation)
    else None
  }

  /** Names and parameters are in one-to-one correspondence. */
  lemma NameRoundTrip(p: Param, s: string)
    ensures ParseName(Name(p)) == Some(p)
    ensures ParseName(s) == Some(p) <==> s == Name(p)
  {
  }

  predicate Distinct<T(==)>(s: seq<T>) {
    forall i, j :: 0 <= i < j < |s| ==> s[i] != s[j]
  }

  /** The number of parameters of a mode: 7 physical, 6 normalized. */
  function NPars(norm: bool): nat {
    if norm then 6 else 7
  }

  /** The canonical parameter order of a mode. */
  function Order(norm: bool): (order: seq<Param>)
    ensures |order| == NPars(norm)
    ensures Distinct(order)
    ensures (Norm in order) <==> norm
    ensures (Dist in order) <==> !norm
    ensures (Rad in order) <==> !norm
    ensures Teff in order && Logg in order && Z in order && Av in order && Inflation in order
  {
    if !norm then [Teff, Logg, Z, Dist, Rad, Av, Inflation]
    else [Teff, Logg, Z, Norm, Av, Inflation]
  }

  /**
    Extinction sits second to last and inflation last in both orders, so an
    index counted from the end picks the same parameter in either mode.
  */
  lemma AvIsSecondToLast(norm: bool)
    ensures Order(norm)[NPars(norm) - 2] == Av
    ensures Order(norm)[NPars(norm) - 1] == Inflation
    ensures forall i :: 0 <= i < NPars(norm) && i != NPars(norm) - 2 ==> Order(norm)[i] != Av
  {
  }

  /** The first index holding `p`, as `sp.where(p == order)[0]` finds it. */
  function IndexOf(order: seq<Param>, p: Param): (r: Option<nat>)
    ensures r.Some? ==> r.value < |order| && order[r.value] == p && p !in order[..r.value]
    ensures r.None? <==> p !in order
  {
    if |order| == 0 then None
    else if order[0] == p then Some(0)
    else
      match IndexOf(order[1..], p)
      case None => None
      case Some(k) =>
        assert order[..k + 1] == [order[0]] + order[1..][..k];
        Some(k + 1)
  }

  /** In an order without repeats, the index of the parameter at slot `i` is `i`. */
  lemma IndexOfDistinct(order: seq<Param>, i: nat)
    requires Distinct(order) && i < |order|
    ensures IndexOf(order, order[i]) == Some(i)
  {
  }
}

=== FILE: prior_file.dfy ===
/**
  Interpretation of a prior file: rows of (parameter name, prior kind,
  comma-separated operands), read in order, each one validated and then
  turned into a prior descriptor or a fixed value.
*/
module PriorFile {
  import opened Wrappers
  import opened Errors
  import opened Params
  import opened Text
  import opened Coordinator
  import opened Priors

  /** One line of the prior file, already split into its three columns. */
  datatype Row = Row(name: string, kind: string, bounds: string)

  /** The prior kinds a row may name, in any letter case. */
  datatype Kind = UniformKind | NormalKind | TruncatedNormalKind | DefaultKind | FixedKind

  function KindName(k: Kind): string {
    match k
    case UniformKind => "uniform"
    case NormalKind => "normal"
    case TruncatedNormalKind => "truncatednormal"
    case DefaultKind => "default"
    case FixedKind => "fixed"
  }

  /** `pri.lower()` compared with the five kind names; `None` for any other kind. */
  function ParseKind(kind: string): (r: Option<Kind>)
    ensures r.Some? ==> Lower(kind) == KindName(r.value)
    ensures r.None? ==> forall k: Kind :: Lower(kind) != KindName(k)
  {
    var l := Lower(kind);
    if l == "uniform" then Some(UniformKind)
    else if l == "normal" then Some(NormalKind)
    else if l == "truncatednormal" then Some(TruncatedNormalKind)
    else if l == "default" then Some(DefaultKind)
    else if l == "fixed" then Some(FixedKind)
    else None
  }

  /** The kind column is read without regard to letter case. */
  lemma {:induction false} ParseKindIgnoresCase(kind: string, k: Kind)
    ensures ParseKind(Lower(kind)) == ParseKind(kind)
    ensures ParseKind(KindName(k)) == Some(k)
  {
    LowerIdempotent(kind);
    LowerOfLower(KindName(k));
  }

  /** Python's `float` on one piece of text: a number, or nothing when it raises. */
  type FloatParser = string -> Option<real>

  /** Every piece converted by `float`, or `ValueError` at the first one it rejects. */
  function ParseAll(name: string, parts: seq<string>, parseFloat: FloatParser): (r: Result<seq<real>, Error>)
    ensures r.Success? <==> forall k :: 0 <= k < |parts| ==> parseFloat(parts[k]).Some?
    ensures r.Success? ==>
      |r.value| == |parts| && forall k :: 0 <= k < |parts| ==> parseFloat(parts[k]) == Some(r.value[k])
    ensures r.Failure? ==> r.error == ValueError(name)
  {
    if |parts| == 0 then Success([])
    else
      match parseFloat(parts[0])
      case None => Failure(ValueError(name))
      case Some(x) =>
        var rest :- ParseAll(name, parts[1..], parseFloat);
        Success([x] + rest)
  }

  /**
    `bo.split(',')` unpacked into exactly `n` names and each converted by
    `float`: the wrong number of pieces or a piece `float` rejects is a
    `ValueError`.
  */
  function Operands(name: string, bounds: string, n: nat, parseFloat: FloatParser): (r: Result<seq<real>, Error>)
    ensures r.Success? <==>
      |Split(bounds, ',')| == n && forall k :: 0 <= k < n ==> parseFloat(Split(bounds, ',')[k]).Some?
    ensures r.Success? ==>
      |r.value| == n && forall k :: 0 <= k < n ==> parseFloat(Split(bounds, ',')[k]) == Some(r.value[k])
    ensures r.Failure? ==> r.error == ValueError(name)
  {
    var parts := Split(bounds, ',');
    if |parts| != n then Failure(ValueError(name)) else ParseAll(name, parts, parseFloat)
  }

  /** A prior setup whose vectors match the order of the mode. */
  predicate Shaped(st: PriorSetup, norm: bool) {
    |st.coord| == NPars(norm) && |st.fixed| == NPars(norm)
  }

  /** The name check that precedes kind interpretation: known name, and present in the mode. */
  function Validate(row: Row, norm: bool): (r: Result<Param, Error>)
    ensures r.Success? <==> ParseName(row.name).Some? && !(norm && (row.name == "dist" || row.name == "rad"))
    ensures r.Success? ==> Name(r.value) == row.name
    ensures ParseName(row.name).None? ==> r == Failure(PriorError(row.name, 0))
    ensures ParseName(row.name).Some? && r.Failure? ==> r == Failure(PriorError(row.name, 1))
  {
    match ParseName(row.name)
    case None => Failure(PriorError(row.name, 0))
    case Some(p) =>
      if norm && (p == Dist || p == Rad) then Failure(PriorError(row.name, 1)) else Success(p)
  }

  /** The prior a recognised non-`fixed` kind stores, from the row's operands. */
  function KindPrior(p: Param, k: Kind, row: Row, defaults: map<Param, Option<Prior>>,
                     parseFloat: FloatParser): Result<Option<Prior>, Error>
    requires k != FixedKind
  {
    match k
    case UniformKind =>
      var xs :- Operands(row.name, row.bounds, 2, parseFloat);
      Success(Some(Uniform(xs[0], xs[1] - xs[0])))
    case NormalKind =>
      var xs :- Operands(row.name, row.bounds, 2, parseFloat);
      Success(Some(Normal(xs[0], xs[1])))
    case TruncatedNormalKind =>
      var xs :- Operands(row.name, row.bounds, 4, parseFloat);
      var mu, sig, up, low := xs[0], xs[1], xs[2], xs[3];
      if sig == 0.0 then Failure(ZeroDivisionError(row.name))
      else Success(Some(TruncNormal((low - mu) / sig, (up - mu) / sig, mu, sig)))
    case DefaultKind =>
      if p in defaults then Success(defaults[p]) else Failure(KeyError(row.name))
  }

  /** A `fixed` row: the value is read even when the parameter has no slot in the order. */
  function FixParam(st: PriorSetup, p: Param, row: Row, norm: bool, parseFloat: FloatParser): (r: Result<PriorSetup, Error>)
    requires Shaped(st, norm)
    ensures r.Success? ==> Shaped(r.value, norm) && r.value.priors == st.priors
    ensures r.Success? ==> forall i :: 0 <= i < |st.coord| ==> r.value.coord[i] == st.coord[i] || r.value.coord[i] == 1
  {
    match parseFloat(row.bounds)
    case None => Failure(ValueError(row.name))
    case Some(v) =>
      match IndexOf(Order(norm), p)
      case None => Success(st)
      case Some(i) => Success(st.(coord := st.coord[i := 1], fixed := st.fixed[i := v]))
  }

  /**
    One prior-file row, as intended (the truncated-normal prior is stored
    under the row's parameter). `defaults` are the default priors.
  */
  function ApplyRow(st: PriorSetup, row: Row, norm: bool, defaults: map<Param, Option<Prior>>,
                    parseFloat: FloatParser): (r: Result<PriorSetup, Error>)
    requires Shaped(st, norm)
    // the name check comes first, whatever the kind and operands
    ensures Validate(row, norm).Failure? ==> r == Failure(Validate(row, norm).error)
    ensures r.Success? ==> Shaped(r.value, norm)
    ensures r.Success? ==> r.value.priors.Keys <= st.priors.Keys + {Validate(row, norm).value}
    // a row never frees a fixed slot and only ever writes the flag 1
    ensures r.Success? ==> forall i :: 0 <= i < |st.coord| ==> r.value.coord[i] == st.coord[i] || r.value.coord[i] == 1
    // only a `fixed` row touches the coordinator or the fixed values
    ensures r.Success? && ParseKind(row.kind) != Some(FixedKind) ==>
      r.value.coord == st.coord && r.value.fixed == st.fixed
    // an unrecognised kind changes nothing
    ensures Validate(row, norm).Success? && ParseKind(row.kind).None? ==> r == Success(st)
  {
    var p :- Validate(row, norm);
    match ParseKind(row.kind)
    case None => Success(st)
    case Some(FixedKind) => FixParam(st, p, row, norm, parseFloat)
    case Some(k) =>
      var d :- KindPrior(p, k, row, defaults, parseFloat);
      Success(st.(priors := st.priors[p := d]))
  }

  /** A row's name is accepted exactly when it is one of the eight names and belongs to the mode. */
  lemma ValidateMatchesMode(row: Row, norm: bool)
    ensures Validate(row, norm).Success? <==> exists p: Param :: Name(p) == row.name && (p in Order(norm) || p == Norm)
  {
    match ParseName(row.name)
    case None =>
    case Some(p) =>
      assert Name(p) == row.name;
      if norm && (p == Dist || p == Rad) {
        forall q: Param | Name(q) == row.name ensures !(q in Order(norm) || q == Norm) {
          NameRoundTrip(q, row.name);
        }
      }
  }

  /** A `uniform a,b` row stores a uniform prior with support [a, b]. */
  lemma UniformRow(st: PriorSetup, row: Row, norm: bool, defaults: map<Param, Option<Prior>>,
                   parseFloat: FloatParser, p: Param, a: real, b: real)
    requires Shaped(st, norm)
    requires Validate(row, norm) == Success(p) && ParseKind(row.kind) == Some(UniformKind)
    requires Operands(row.name, row.bounds, 2, parseFloat) == Success([a, b])
    ensures var r := ApplyRow(st, row, norm, defaults, parseFloat);
      r.Success? && r.value.priors[p].Some? && r.value.priors[p].value.Uniform? &&
      Support(r.value.priors[p].value) == Some((a, b)) &&
      (forall q :: q != p && q in st.priors ==> q in r.value.priors && r.value.priors[q] == st.priors[q])
  {
  }

  /** A `normal mu,sig` row stores a normal prior with that mean and deviation. */
  lemma NormalRow(st: PriorSetup, row: Row, norm: bool, defaults: map<Param, Option<Prior>>,
                  parseFloat: FloatParser, p: Param, mu: real, sig: real)
    requires Shaped(st, norm)
    requires Validate(row, norm) == Success(p) && ParseKind(row.kind) == Some(NormalKind)
    requires Operands(row.name, row.bounds, 2, parseFloat) == Success([mu, sig])
    ensures var r := ApplyRow(st, row, norm, defaults, parseFloat);
      r.Success? && r.value.priors[p] == Some(Normal(mu, sig))
  {
  }

  /**
    A `truncatednormal mu,sig,up,low` row stores a truncated normal centred
    on mu with scale sig whose support is the raw bounds [low, up]; a zero
    scale raises `ZeroDivisionError`.
  */
  lemma TruncatedNormalRow(st: PriorSetup, row: Row, norm: bool, defaults: map<Param, Option<Prior>>,
                           parseFloat: FloatParser, p: Param, mu: real, sig: real, up: real, low: real)
    requires Shaped(st, norm)
    requires Validate(row, norm) == Success(p) && ParseKind(row.kind) == Some(TruncatedNormalKind)
    requires Operands(row.name, row.bounds, 4, parseFloat) == Success([mu, sig, up, low])
    ensures var r := ApplyRow(st, row, norm, defaults, parseFloat);
      (sig == 0.0 ==> r == Failure(ZeroDivisionError(row.name))) &&
      (sig != 0.0 ==> r.Success? && r.value.priors[p].Some? && r.value.priors[p].value.TruncNormal? &&
                      r.value.priors[p].value.loc == mu && r.value.priors[p].value.scale == sig &&
                      Support(r.value.priors[p].value) == Some((low, up)))
  {
    if sig != 0.0 {
      var d := TruncNormal((low - mu) / sig, (up - mu) / sig, mu, sig);
      assert KindPrior(p, TruncatedNormalKind, row, defaults, parseFloat) == Success(Some(d));
      assert ApplyRow(st, row, norm, defaults, parseFloat) == Success(st.(priors := st.priors[p := Some(d)]));
      assert d.a * d.scale == low - mu && d.b * d.scale == up - mu;
      var s := Support(d).value;
      assert s.0 == mu + d.a * d.scale && s.1 == mu + d.b * d.scale;
      assert s == (low, up);
    }
  }

  /** A `default` row copies the default prior, or raises `KeyError` when there is none. */
  lemma DefaultRow(st: PriorSetup, row: Row, norm: bool, defaults: map<Param, Option<Prior>>,
                   parseFloat: FloatParser, p: Param)
    requires Shaped(st, norm)
    requires Validate(row, norm) == Success(p) && ParseKind(row.kind) == Some(DefaultKind)
    ensures var r := ApplyRow(st, row, norm, defaults, parseFloat);
      (p in defaults ==> r.Success? && r.value.priors[p] == defaults[p]) &&
      (p !in defaults ==> r == Failure(KeyError(row.name)))
  {
  }

  /**
    A `fixed v` row marks the parameter's slot fixed at v, leaving every other
    slot and the priors alone; a parameter outside the mode's order changes
    nothing.
  */
  lemma FixedRow(st: PriorSetup, row: Row, norm: bool, defaults: map<Param, Option<Prior>>,
                 parseFloat: FloatParser, p: Param, v: real)
    requires Shaped(st, norm)
    requires Validate(row, norm) == Success(p) && ParseKind(row.kind) == Some(FixedKind)
    requires parseFloat(row.bounds) == Some(v)
    ensures var r := ApplyRow(st, row, norm, defaults, parseFloat);
      r.Success? && r.value.priors == st.priors &&
      (forall i :: 0 <= i < NPars(norm) && Order(norm)[i] == p ==> r.value.coord[i] == 1 && r.value.fixed[i] == v) &&
      (forall i :: 0 <= i < NPars(norm) && Order(norm)[i] != p ==>
        r.value.coord[i] == st.coord[i] && r.value.fixed[i] == st.fixed[i]) &&
      (p !in Order(norm) ==> r == Success(st))
  {
    var r := ApplyRow(st, row, norm, defaults, parseFloat);
    match IndexOf(Order(norm), p)
    case None =>
    case Some(i) =>
      forall j | 0 <= j < NPars(norm) && Order(norm)[j] == p ensures j == i {
        IndexOfDistinct(Order(norm), j);
      }
  }

  /** The rows of a file, applied in order; the first failing row ends the reading. */
  function ApplyRows(st: PriorSetup, rows: seq<Row>, norm: bool, defaults: map<Param, Option<Prior>>,
                     parseFloat: FloatParser): (r: Result<PriorSetup, Error>)
    requires Shaped(st, norm)
    ensures r.Success? ==> Shaped(r.value, norm)
    ensures r.Success? ==> forall i :: 0 <= i < |st.coord| ==> r.value.coord[i] == st.coord[i] || r.value.coord[i] == 1
    decreases |rows|
  {
    if |rows| == 0 then Success(st)
    else
      var next :- ApplyRow(st, rows[0], norm, defaults, parseFloat);
      ApplyRows(next, rows[1..], norm, defaults, parseFloat)
  }

  /** Some row of the file names `p`. */
  predicate Listed(rows: seq<Row>, p: Param) {
    exists k :: 0 <= k < |rows| && rows[k].name == Name(p)
  }

  /** A file read to the end had only valid names, and its priors name only listed parameters. */
  lemma {:induction false} ApplyRowsOutcome(st: PriorSetup, rows: seq<Row>, norm: bool,
                                            defaults: map<Param, Option<Prior>>, parseFloat: FloatParser)
    requires Shaped(st, norm)
    ensures var r := ApplyRows(st, rows, norm, defaults, parseFloat);
      r.Success? ==>
        (forall k :: 0 <= k < |rows| ==> Validate(rows[k], norm).Success?) &&
        (forall p :: p in r.value.priors ==> p in st.priors || Listed(rows, p))
    decreases |rows|
  {
    var r := ApplyRows(st, rows, norm, defaults, parseFloat);
    if |rows| > 0 && r.Success? {
      var next := ApplyRow(st, rows[0], norm, defaults, parseFloat).value;
      ApplyRowsOutcome(next, rows[1..], norm, defaults, parseFloat);
      forall k | 0 <= k < |rows| ensures Validate(rows[k], norm).Success? {
        if k > 0 {
          assert rows[1..][k - 1] == rows[k];
        }
      }
      forall p | p in r.value.priors ensures p in st.priors || Listed(rows, p) {
        if p !in next.priors {
          assert Listed(rows[1..], p);
          var k :| 0 <= k < |rows[1..]| && rows[1..][k].name == Name(p);
          assert rows[k + 1].name == Name(p);
        } else if p !in st.priors {
          assert rows[0].name == Name(p);
        }
      }
    }
  }

  /** Reading a file in two parts is reading it whole. */
  lemma {:induction false} ApplyRowsSplit(st: PriorSetup, rows: seq<Row>, k: nat, norm: bool,
                                          defaults: map<Param, Option<Prior>>, parseFloat: FloatParser)
    requires Shaped(st, norm) && k <= |rows|
    requires ApplyRows(st, rows[..k], norm, defaults, parseFloat).Success?
    ensures ApplyRows(st, rows, norm, defaults, parseFloat) ==
      ApplyRows(ApplyRows(st, rows[..k], norm, defaults, parseFloat).value, rows[k..], norm, defaults, parseFloat)
    decreases k
  {
    if k == 0 {
      assert rows[k..] == rows;
    } else {
      var next := ApplyRow(st, rows[0], norm, defaults, parseFloat).value;
      assert rows[..k][0] == rows[0];
      assert rows[..k][1..] == rows[1..][..k - 1];
      ApplyRowsSplit(next, rows[1..], k - 1, norm, defaults, parseFloat);
      assert rows[1..][k - 1..] == rows[k..];
    }
  }

  /**
    The first row whose name is unknown, or not in the mode, ends the reading
    with `PriorError` for that name, whatever its kind and operands and
    whatever follows it.
  */
  lemma FirstInvalidRowRaises(st: PriorSetup, rows: seq<Row>, k: nat, norm: bool,
                              defaults: map<Param, Option<Prior>>, parseFloat: FloatParser)
    requires Shaped(st, norm) && k < |rows|
    requires ApplyRows(st, rows[..k], norm, defaults, parseFloat).Success?
    requires Validate(rows[k], norm).Failure?
    ensures ApplyRows(st, rows, norm, defaults, parseFloat) == Failure(Validate(rows[k], norm).error)
    ensures ParseName(rows[k].name).None? ==>
      ApplyRows(st, rows, norm, defaults, parseFloat) == Failure(PriorError(rows[k].name, 0))
  {
    ApplyRowsSplit(st, rows, k, norm, defaults, parseFloat);
    assert rows[k..][0] == rows[k];
  }

  /**
    `create_priors`: without a file the priors are the defaults; with one, the
    priors start empty and the rows fill them, starting from the coordinator
    and fixed values the defaults left.
  */
  function CreatePriors(file: Option<seq<Row>>, defaults: PriorSetup, norm: bool,
                        parseFloat: FloatParser): (r: Result<PriorSetup, Error>)
    requires Shaped(defaults, norm)
    ensures file.None? ==> r == Success(defaults)
    ensures r.Success? ==> Shaped(r.value, norm)
    ensures r.Success? ==> forall i :: 0 <= i < NPars(norm) && defaults.coord[i] != 0 ==> r.value.coord[i] != 0
    ensures r.Success? && ZeroOne(defaults.coord) ==> ZeroOne(r.value.coord)
  {
    match file
    case None => Success(defaults)
    case Some(rows) => ApplyRows(PriorSetup(map[], defaults.coord, defaults.fixed), rows, norm, defaults.priors, parseFloat)
  }

  /** With a file, the priors name only parameters the file lists, and every name in the file was valid. */
  lemma CreatePriorsFromFile(rows: seq<Row>, defaults: PriorSetup, norm: bool, parseFloat: FloatParser)
    requires Shaped(defaults, norm)
    ensures var r := CreatePriors(Some(rows), defaults, norm, parseFloat);
      r.Success? ==>
        (forall p :: p in r.value.priors ==> Listed(rows, p)) &&
        (forall k :: 0 <= k < |rows| ==> Validate(rows[k], norm).Success?)
  {
    ApplyRowsOutcome(PriorSetup(map[], defaults.coord, defaults.fixed), rows, norm, defaults.priors, parseFloat);
  }

  /**
    One prior-file row as written: the truncated-normal branch assigns to
    `priot_dict`, a name that is not defined, so after its operands are read
    it raises `NameError` instead of storing the prior.
  */
  function ApplyRowAsWritten(st: PriorSetup, row: Row, norm: bool, defaults: map<Param, Option<Prior>>,
                             parseFloat: FloatParser): (r: Result<PriorSetup, Error>)
    requires Shaped(st, norm)
    ensures ParseKind(row.kind) != Some(TruncatedNormalKind) ==> r == ApplyRow(st, row, norm, defaults, parseFloat)
    ensures ParseKind(row.kind) == Some(TruncatedNormalKind) ==> r.Failure?
  {
    var intended := ApplyRow(st, row, norm, defaults, parseFloat);
    if ParseKind(row.kind) == Some(TruncatedNormalKind) && intended.Success? then Failure(NameError("priot_dict"))
    else intended
  }

  /** Every valid truncated-normal row fails as written where the intended reading stores its prior. */
  lemma TruncatedNormalRowRaisesAsWritten(st: PriorSetup, row: Row, norm: bool, defaults: map<Param, Option<Prior>>,
                                          parseFloat: FloatParser, p: Param, mu: real, sig: real, up: real, low: real)
    requires Shaped(st, norm)
    requires Validate(row, norm) == Success(p) && ParseKind(row.kind) == Some(TruncatedNormalKind)
    requires Operands(row.name, row.bounds, 4, parseFloat) == Success([mu, sig, up, low])
    requires sig != 0.0
    ensures ApplyRowAsWritten(st, row, norm, defaults, parseFloat) == Failure(NameError("priot_dict"))
    ensures ApplyRow(st, row, norm, defaults, parseFloat).Success?
  {
    TruncatedNormalRow(st, row, norm, defaults, parseFloat, p, mu, sig, up, low);
  }

  /** The rows `zip` makes from three strings: one row per character position, up to the shortest. */
  function CharRows(row: Row): (r: seq<Row>)
    ensures |r| <= |row.name| && |r| <= |row.kind| && |r| <= |row.bounds|
    ensures |r| == |row.name| || |r| == |row.kind| || |r| == |row.bounds|
    ensures forall i :: 0 <= i < |r| ==> r[i] == Row([row.name[i]], [row.kind[i]], [row.bounds[i]])
  {
    var n := if |row.name| <= |row.kind| && |row.name| <= |row.bounds| then |row.name|
             else if |row.kind| <= |row.bounds| then |row.kind| else |row.bounds|;
    seq(n, i requires 0 <= i < n => Row([row.name[i]], [row.kind[i]], [row.bounds[i]]))
  }

  /**
    The prior file's rows after `sp.loadtxt(..., unpack=True)` has split them
    into three columns and `zip` has put them back together, as written. A
    file of two or more rows comes back unchanged. A one-row file is squeezed
    to three strings, so `zip` walks their characters. An empty file leaves
    nothing to unpack into the three column names.
  */
  function ZipColumnsAsWritten(rows: seq<Row>): (r: Result<seq<Row>, Error>)
    ensures r.Failure? <==> |rows| == 0
    ensures |rows| >= 2 ==> r == Success(rows)
    // one row: every zipped name is a single character of the row's name, in order
    ensures |rows| == 1 ==>
      && r.Success?
      && |r.value| <= |rows[0].name|
      && forall i :: 0 <= i < |r.value| ==> r.value[i].name == [rows[0].name[i]]
  {
    if |rows| == 0 then Failure(ValueError("param, prior, bounds"))
    else if |rows| == 1 then Success(CharRows(rows[0]))
    else Success(rows)
  }

  /**
    `create_priors` as written, file reading included: it agrees with the
    row reader on files of two or more rows, fails on an empty file, and
    reads a one-row file character by character.
  */
  function CreatePriorsAsWritten(file: Option<seq<Row>>, defaults: PriorSetup, norm: bool,
                                 parseFloat: FloatParser): (r: Result<PriorSetup, Error>)
    requires Shaped(defaults, norm)
    ensures file.None? ==> r == Success(defaults)
    ensures file.Some? && |file.value| >= 2 ==> r == CreatePriors(file, defaults, norm, parseFloat)
    ensures file.Some? && |file.value| == 0 ==> r.Failure? && r.error.ValueError?
    ensures file.Some? && |file.value| == 1 ==> r == CreatePriors(Some(CharRows(file.value[0])), defaults, norm, parseFloat)
  {
    match file
    case None => Success(defaults)
    case Some(rows) =>
      var zipped :- ZipColumnsAsWritten(rows);
      CreatePriors(Some(zipped), defaults, norm, parseFloat)
  }

  /**
    A one-row file `teff normal 5000,100` as written is read as the rows
    (t, n, 5), (e, o, 0), (f, r, 0), (f, m, 0), and `t` is not a parameter.
    A one-row file `z normal -0.1,0.2` is read as the single row (z, n, -),
    whose kind matches nothing, so no prior is set at all.
  */
  lemma OneRowFileReadsCharacters(defaults: PriorSetup, norm: bool, parseFloat: FloatParser)
    requires Shaped(defaults, norm)
    ensures CreatePriorsAsWritten(Some([Row("teff", "normal", "5000,100")]), defaults, norm, parseFloat)
      == Failure(PriorError("t", 0))
    ensures CreatePriorsAsWritten(Some([Row("z", "normal", "-0.1,0.2")]), defaults, norm, parseFloat)
      == Success(PriorSetup(map[], defaults.coord, defaults.fixed))
  {
    var teff := CharRows(Row("teff", "normal", "5000,100"));
    assert teff[0] == Row("t", "n", "5");
    assert ParseName("t").None?;
    var z := CharRows(Row("z", "normal", "-0.1,0.2"));
    assert z == [Row("z", "n", "-")];
    assert ParseName("z") == Some(Z);
    assert Lower("n") == "n";
  }

  /** An empty file fails as written, where the row reader gives an empty prior map. */
  lemma EmptyFileRaises(defaults: PriorSetup, norm: bool, parseFloat: FloatParser)
    requires Shaped(defaults, norm)
    ensures CreatePriorsAsWritten(Some([]), defaults, norm, parseFloat).Failure?
    ensures CreatePriors(Some([]), defaults, norm, parseFloat) == Success(PriorSetup(map[], defaults.coord, defaults.fixed))
  {
  }

  /** Intended: a one-row file is read as that one row. */
  lemma OneRowFileAppliesRow(row: Row, defaults: PriorSetup, norm: bool, parseFloat: FloatParser)
    requires Shaped(defaults, norm)
    ensures CreatePriors(Some([row]), defaults, norm, parseFloat)
      == ApplyRow(PriorSetup(map[], defaults.coord, defaults.fixed), row, norm, defaults.priors, parseFloat)
  {
    var start := PriorSetup(map[], defaults.coord, defaults.fixed);
    assert [row][1..] == [];
    match ApplyRow(start, row, norm, defaults.priors, parseFloat)
    case Failure(_) =>
    case Success(next) =>
      assert ApplyRows(next, [], norm, defaults.priors, parseFloat) == Success(next);
  }
}

=== FILE: priors.dfy ===
/**
  Prior descriptors, the star record the fitter reads, and the default
  priors the fitter derives from the star.
*/
module Priors {
  import opened Wrappers
  import opened Errors
  import opened Params

  /** An empirical prior table shipped as a pickle. */
  datatype TableFile = LoggTable | TeffTable

  /**
    A prior distribution, by the parameters of its scipy.stats constructor.
    Nothing is evaluated; only the descriptor is modelled.
  */
  datatype Prior =
      /** `st.uniform(loc, scale)`: support [loc, loc + scale]. */
    | Uniform(loc: real, scale: real)
      /** `st.norm(loc, scale)`. */
    | Normal(loc: real, scale: real)
      /** `st.truncnorm(a, b, loc, scale)`: a and b are bounds in units of `scale` around `loc`. */
    | TruncNormal(a: real, b: real, loc: real, scale: real)
      /** An empirical ppf table loaded from a pickle. */
    | Table(file: TableFile)

  /** The interval a bounded prior lives on; `None` for unbounded ones and tables. */
  function Support(d: Prior): Option<(real, real)> {
    match d
    case Uniform(loc, scale) => Some((loc, loc + scale))
    case TruncNormal(a, b, loc, scale) => Some((loc + a * scale, loc + b * scale))
    case _ => None
  }

  /** The star attributes the fitter reads. `None` is Python's `None`. */
  datatype Star = Star(
    getTemp: bool, temp: real, tempErr: real,
    getLum: bool, lum: Option<real>, lumErr: real,
    getRad: bool, rad: Option<real>, radErr: real,
    getPlx: bool, plx: real, plxErr: real,
    dist: real, distErr: real,
    mags: seq<real>, magErrs: seq<real>,
    av: real)

  /** The star carries one magnitude and one error per catalogue band. */
  const MagCount: nat := 24

  predicate HasBands(star: Star) {
    |star.mags| == MagCount && |star.magErrs| == MagCount
  }

  /** The bands the log g estimator accepts. */
  datatype Band = H | J | Ks | G | RP | BP | W1 | W2

  /** The catalogue positions the log g estimator reads, and the bands they hold. */
  const LoggMask: seq<nat> := [0, 1, 2, 6, 7, 8, 20, 21]
  const LoggBands: seq<Band> := [H, J, Ks, G, RP, BP, W1, W2]

  lemma LoggBandsDistinct()
    ensures Distinct(LoggBands)
  {
  }

  /** The position of a band in the estimator's band list. */
  function BandPos(b: Band): (k: nat)
    ensures k < |LoggBands| && LoggBands[k] == b
  {
    match b
    case H => 0
    case J => 1
    case Ks => 2
    case G => 3
    case RP => 4
    case BP => 5
    case W1 => 6
    case W2 => 7
  }

  /** The bands are listed in the estimator's band order, each at most once. */
  predicate InBandOrder(bands: seq<Band>) {
    forall i, j :: 0 <= i < j < |bands| ==> BandPos(bands[i]) < BandPos(bands[j])
  }

  /** A keyword of the estimator: a star measurement or a band. */
  datatype Key = TeffKey | LogLKey | RadiusKey | ParallaxKey | BandKey(band: Band)

  /** The estimator's keyword arguments: keyword to (value, error). */
  type EstimatorParams = map<Key, (real, real)>

  /** The isochrone-based log g estimator: (bands used, parameters) to (value, error) or nothing. */
  type Estimator = (seq<Band>, EstimatorParams) -> Option<(real, real)>

  /** The non-photometric estimator parameters the star provides. */
  function StarParams(star: Star, log10: real -> real): (params: EstimatorParams)
    ensures TeffKey in params <==> star.getTemp
    ensures star.getTemp ==> params[TeffKey] == (star.temp, star.tempErr)
    ensures LogLKey in params <==> star.getLum && star.lum.Some?
    ensures LogLKey in params ==> params[LogLKey] == (log10(star.lum.value), log10(star.lumErr))
    ensures RadiusKey in params <==> star.getRad && star.rad.Some?
    ensures RadiusKey in params ==> params[RadiusKey] == (star.rad.value, star.radErr)
    ensures ParallaxKey in params <==> star.getPlx
    ensures star.getPlx ==> params[ParallaxKey] == (star.plx, star.plxErr)
    ensures forall key :: key in params ==> !key.BandKey?
  {
    var p0: EstimatorParams := map[];
    var p1 := if star.getTemp then p0[TeffKey := (star.temp, star.tempErr)] else p0;
    var p2 := if star.getLum && star.lum.Some? then p1[LogLKey := (log10(star.lum.value), log10(star.lumErr))] else p1;
    var p3 := if star.getRad && star.rad.Some? then p2[RadiusKey := (star.rad.value, star.radErr)] else p2;
    if star.getPlx then p3[ParallaxKey := (star.plx, star.plxErr)] else p3
  }

  /**
    The band loop from position `k` on: a band whose magnitude is nonzero is
    appended to the used bands and its (magnitude, error) stored under it.
  */
  function AddBands(star: Star, k: nat, bands: seq<Band>, params: EstimatorParams): (r: (seq<Band>, EstimatorParams))
    requires HasBands(star) && k <= |LoggMask|
    ensures forall b :: b in bands ==> b in r.0
    ensures forall b :: b in r.0 ==> b in bands || b in LoggBands[k..]
    decreases |LoggMask| - k
  {
    if k == |LoggMask| then (bands, params)
    else
      var m := star.mags[LoggMask[k]];
      if m != 0.0 then
        AddBands(star, k + 1, bands + [LoggBands[k]], params[BandKey(LoggBands[k]) := (m, star.magErrs[LoggMask[k]])])
      else
        AddBands(star, k + 1, bands, params)
  }

  /** One step of the band loop at position `k`. */
  function BandStep(star: Star, k: nat, bands: seq<Band>, params: EstimatorParams): (r: (seq<Band>, EstimatorParams))
    requires HasBands(star) && k < |LoggMask|
    ensures AddBands(star, k, bands, params) == AddBands(star, k + 1, r.0, r.1)
  {
    var m := star.mags[LoggMask[k]];
    if m != 0.0 then (bands + [LoggBands[k]], params[BandKey(LoggBands[k]) := (m, star.magErrs[LoggMask[k]])])
    else (bands, params)
  }

  /** From position `k` on, a band is used exactly when its magnitude is nonzero or it was already used. */
  lemma {:induction false} AddBandsUsed(star: Star, k: nat, bands: seq<Band>, params: EstimatorParams)
    requires HasBands(star) && k <= |LoggMask|
    ensures forall t :: k <= t < |LoggMask| ==>
      (LoggBands[t] in AddBands(star, k, bands, params).0 <==> LoggBands[t] in bands || star.mags[LoggMask[t]] != 0.0)
    decreases |LoggMask| - k
  {
    if k < |LoggMask| {
      LoggBandsDistinct();
      var next := BandStep(star, k, bands, params);
      AddBandsUsed(star, k + 1, next.0, next.1);
      var r := AddBands(star, k, bands, params);
      forall t | k <= t < |LoggMask|
        ensures LoggBands[t] in r.0 <==> LoggBands[t] in bands || star.mags[LoggMask[t]] != 0.0
      {
        if t == k {
          if star.mags[LoggMask[k]] == 0.0 && LoggBands[k] !in bands {
            assert LoggBands[k] !in LoggBands[k + 1..];
          }
        }
      }
    }
  }

  /** From position `k` on, a used band carries its magnitude and error. */
  lemma {:induction false} AddBandsValues(star: Star, k: nat, bands: seq<Band>, params: EstimatorParams)
    requires HasBands(star) && k <= |LoggMask|
    ensures forall t :: k <= t < |LoggMask| && star.mags[LoggMask[t]] != 0.0 ==>
      BandKey(LoggBands[t]) in AddBands(star, k, bands, params).1 &&
      AddBands(star, k, bands, params).1[BandKey(LoggBands[t])] == (star.mags[LoggMask[t]], star.magErrs[LoggMask[t]])
    decreases |LoggMask| - k
  {
    if k < |LoggMask| {
      var next := BandStep(star, k, bands, params);
      AddBandsValues(star, k + 1, next.0, next.1);
      AddBandsKeeps(star, k + 1, next.0, next.1);
      LoggBandsDistinct();
      assert LoggBands[k] !in LoggBands[k + 1..];
    }
  }

  /** Every entry for a key the loop does not reach from position `k` on is kept. */
  lemma {:induction false} AddBandsKeeps(star: Star, k: nat, bands: seq<Band>, params: EstimatorParams)
    requires HasBands(star) && k <= |LoggMask|
    ensures forall key :: key in params && (key.BandKey? ==> key.band !in LoggBands[k..]) ==>
      key in AddBands(star, k, bands, params).1 && AddBands(star, k, bands, params).1[key] == params[key]
    decreases |LoggMask| - k
  {
    if k < |LoggMask| {
      var next := BandStep(star, k, bands, params);
      AddBandsKeeps(star, k + 1, next.0, next.1);
      assert LoggBands[k..] == [LoggBands[k]] + LoggBands[k + 1..];
      forall key | key in params && (key.BandKey? ==> key.band !in LoggBands[k..])
        ensures key in next.1 && next.1[key] == params[key]
      {
        assert key != BandKey(LoggBands[k]);
      }
    }
  }

  /** Bands already listed before position `k`, in band order, stay so once the loop has run on. */
  lemma {:induction false} AddBandsOrdered(star: Star, k: nat, bands: seq<Band>, params: EstimatorParams)
    requires HasBands(star) && k <= |LoggMask|
    requires InBandOrder(bands) && forall b :: b in bands ==> BandPos(b) < k
    ensures InBandOrder(AddBands(star, k, bands, params).0)
    decreases |LoggMask| - k
  {
    if k < |LoggMask| {
      var next := BandStep(star, k, bands, params);
      LoggBandsDistinct();
      assert BandPos(LoggBands[k]) == k;
      AddBandsOrdered(star, k + 1, next.0, next.1);
    }
  }

  /** The arguments `_default_priors` hands the log g estimator. */
  function EstimatorInput(star: Star, log10: real -> real): (r: (seq<Band>, EstimatorParams))
    requires HasBands(star)
  {
    AddBands(star, 0, [], StarParams(star, log10))
  }

  /**
    The whole band loop, started from no bands and a map without band keys:
    exactly the nonzero-magnitude bands are used, each with its magnitude
    and error, and the map's own entries are kept.
  */
  lemma BandLoopContents(star: Star, params: EstimatorParams)
    requires HasBands(star)
    requires forall key :: key in params ==> !key.BandKey?
    ensures var r := AddBands(star, 0, [], params);
      forall t :: 0 <= t < |LoggMask| ==> (LoggBands[t] in r.0 <==> star.mags[LoggMask[t]] != 0.0)
    ensures forall t :: 0 <= t < |LoggMask| && star.mags[LoggMask[t]] != 0.0 ==>
      BandKey(LoggBands[t]) in AddBands(star, 0, [], params).1 &&
      AddBands(star, 0, [], params).1[BandKey(LoggBands[t])] == (star.mags[LoggMask[t]], star.magErrs[LoggMask[t]])
    ensures var r := AddBands(star, 0, [], params);
      forall key :: key in params ==> key in r.1 && r.1[key] == params[key]
  {
    AddBandsUsed(star, 0, [], params);
    AddBandsValues(star, 0, [], params);
    AddBandsKeeps(star, 0, [], params);
  }

  /**
    Every band with a nonzero magnitude, and no other, is used, listed in
    band order and once; each used band carries its magnitude and error; the
    star's own measurements are kept.
  */
  lemma EstimatorInputContents(star: Star, log10: real -> real)
    requires HasBands(star)
    ensures var r := EstimatorInput(star, log10);
      forall t :: 0 <= t < |LoggMask| ==> (LoggBands[t] in r.0 <==> star.mags[LoggMask[t]] != 0.0)
    ensures forall t :: 0 <= t < |LoggMask| && star.mags[LoggMask[t]] != 0.0 ==>
      BandKey(LoggBands[t]) in EstimatorInput(star, log10).1 &&
      EstimatorInput(star, log10).1[BandKey(LoggBands[t])] == (star.mags[LoggMask[t]], star.magErrs[LoggMask[t]])
    ensures var r := EstimatorInput(star, log10);
      forall key :: key in StarParams(star, log10) ==> key in r.1 && r.1[key] == StarParams(star, log10)[key]
    ensures InBandOrder(EstimatorInput(star, log10).0)
  {
    BandLoopContents(star, StarParams(star, log10));
    AddBandsOrdered(star, 0, [], StarParams(star, log10));
  }

  /** The fitter's own priors, coordinator and fixed values. */
  datatype PriorSetup = PriorSetup(priors: map<Param, Option<Prior>>, coord: seq<int>, fixed: seq<real>)

  const ZPrior: Prior := Normal(-0.125, 0.234)
  const RadFallback: Prior := Uniform(0.1, 10.0)
  const Tiny: real := 0.00000000000000000001
  const NormPrior: Prior := TruncNormal(0.0, 1.0 / Tiny, 0.0, Tiny)
  const InflationPrior: Prior := TruncNormal((0.0 - 0.5) / 0.5, (5.0 - 0.5) / 0.5, 0.5, 0.5)

  /**
    The supports of the radius fallback, normalization and inflation priors,
    read from scipy's (loc, scale) arguments; metallicity is unbounded.
  */
  lemma FixedPriorSupports()
    ensures Support(RadFallback) == Some((0.1, 10.1))
    ensures Support(NormPrior) == Some((0.0, 1.0))
    ensures Support(InflationPrior) == Some((0.0, 5.0))
    ensures InflationPrior.loc == 0.5
    ensures Support(ZPrior).None?
  {
  }

  /** The log g default: a table, a normal prior from the estimator, or nothing. */
  function LoggDefault(star: Star, estimateLogg: bool, estimate: Estimator, log10: real -> real): Option<Prior>
    requires estimateLogg ==> HasBands(star)
  {
    if !estimateLogg then Some(Table(LoggTable))
    else
      var (bands, params) := EstimatorInput(star, log10);
      match estimate(bands, params)
      case Some(e) => Some(Normal(e.0, e.1))
      case None => None
  }

  /** The default prior map for a given log g default, before extinction is decided. */
  function ModeDefaults(star: Star, norm: bool, logg: Option<Prior>): (m: map<Param, Option<Prior>>)
    ensures forall p :: p in m <==>
      p == Teff || p == Z || (p == Logg && logg.Some?) || (norm && p == Norm) || (!norm && (p == Dist || p == Rad))
  {
    var m0: map<Param, Option<Prior>> := if logg.Some? then map[Logg := logg] else map[];
    var teff := if star.getTemp then Normal(star.temp, star.tempErr) else Table(TeffTable);
    var m1 := m0[Teff := Some(teff)][Z := Some(ZPrior)];
    if !norm then
      m1[Dist := Some(Normal(star.dist, star.distErr))]
        [Rad := Some(if star.rad.Some? then Normal(star.rad.value, star.radErr) else RadFallback)]
    else m1[Norm := Some(NormPrior)]
  }

  /**
    `_default_priors` as intended: the default prior of every parameter of
    the mode, and extinction fixed at 0 when the catalogue extinction is 0.
    `start` holds the freshly zeroed coordinator and fixed vectors.
  */
  function DefaultPriors(star: Star, norm: bool, estimateLogg: bool, estimate: Estimator,
                         log10: real -> real, start: PriorSetup): (d: PriorSetup)
    requires |start.coord| == NPars(norm) && |start.fixed| == NPars(norm)
    requires estimateLogg ==> HasBands(star)
    ensures Teff in d.priors && Z in d.priors && Av in d.priors && Inflation in d.priors
    ensures |d.coord| == |start.coord| && |d.fixed| == |start.fixed|
    // extinction: fixed at 0 in its slot, second to last, when the catalogue value is 0
    ensures star.av == 0.0 ==> d.priors[Av].None?
    ensures star.av == 0.0 ==> d.coord == start.coord[NPars(norm) - 2 := 1] && d.fixed == start.fixed[NPars(norm) - 2 := 0.0]
    ensures star.av != 0.0 ==> d.coord == start.coord && d.fixed == start.fixed
  {
    var m := ModeDefaults(star, norm, LoggDefault(star, estimateLogg, estimate, log10));
    var n := |start.coord|;
    if star.av == 0.0 then
      PriorSetup(m[Av := None][Inflation := Some(InflationPrior)], start.coord[n - 2 := 1], start.fixed[n - 2 := 0.0])
    else
      PriorSetup(m[Av := Some(Uniform(0.0, star.av))][Inflation := Some(InflationPrior)], start.coord, start.fixed)
  }

  /** The defaults cover every parameter of the mode, except log g when the estimator gives nothing. */
  lemma DefaultPriorsCover(star: Star, norm: bool, estimateLogg: bool, estimate: Estimator,
                           log10: real -> real, start: PriorSetup, p: Param)
    requires |start.coord| == NPars(norm) && |start.fixed| == NPars(norm)
    requires estimateLogg ==> HasBands(star)
    ensures p in DefaultPriors(star, norm, estimateLogg, estimate, log10, start).priors <==>
      p in Order(norm) && (p == Logg ==> LoggDefault(star, estimateLogg, estimate, log10).Some?)
    ensures Logg in DefaultPriors(star, norm, estimateLogg, estimate, log10, start).priors <==>
      !estimateLogg || estimate(EstimatorInput(star, log10).0, EstimatorInput(star, log10).1).Some?
  {
    var logg := LoggDefault(star, estimateLogg, estimate, log10);
    var m := ModeDefaults(star, norm, logg);
    var d := DefaultPriors(star, norm, estimateLogg, estimate, log10, start);
    assert p in d.priors <==> p in m || p == Av || p == Inflation;
  }

  /** The default prior chosen for each parameter, from the star's flags and values. */
  lemma DefaultPriorsPolicy(star: Star, norm: bool, estimateLogg: bool, estimate: Estimator,
                            log10: real -> real, start: PriorSetup)
    requires |start.coord| == NPars(norm) && |start.fixed| == NPars(norm)
    requires estimateLogg ==> HasBands(star)
    ensures var d := DefaultPriors(star, norm, estimateLogg, estimate, log10, start).priors;
      && d[Z] == Some(Normal(-0.125, 0.234))
      && d[Teff] == Some(if star.getTemp then Normal(star.temp, star.tempErr) else Table(TeffTable))
      && (!estimateLogg ==> d[Logg] == Some(Table(LoggTable)))
      && (estimateLogg && estimate(EstimatorInput(star, log10).0, EstimatorInput(star, log10).1).Some? ==>
            var e := estimate(EstimatorInput(star, log10).0, EstimatorInput(star, log10).1).value;
            Logg in d && d[Logg] == Some(Normal(e.0, e.1)))
      && (!norm ==> d[Dist] == Some(Normal(star.dist, star.distErr)))
      && (!norm && star.rad.Some? ==> d[Rad] == Some(Normal(star.rad.value, star.radErr)))
      && (!norm && star.rad.None? ==> d[Rad] == Some(Uniform(0.1, 10.0)))
      && (norm ==> d[Norm] == Some(NormPrior) && Support(NormPrior) == Some((0.0, 1.0)))
      && (star.av != 0.0 ==> d[Av] == Some(Uniform(0.0, star.av)) && Support(d[Av].value) == Some((0.0, star.av)))
      && d[Inflation] == Some(InflationPrior) && Support(InflationPrior) == Some((0.0, 5.0))
  {
    FixedPriorSupports();
    DefaultPriorsCover(star, norm, estimateLogg, estimate, log10, start, Logg);
  }

  /** With extinction fixed by the defaults, exactly the extinction slot is marked. */
  lemma DefaultsFixOnlyAv(star: Star, norm: bool, estimateLogg: bool, estimate: Estimator,
                          log10: real -> real, start: PriorSetup, i: nat)
    requires |start.coord| == NPars(norm) && |start.fixed| == NPars(norm)
    requires estimateLogg ==> HasBands(star)
    requires star.av == 0.0 && i < NPars(norm)
    ensures var d := DefaultPriors(star, norm, estimateLogg, estimate, log10, start);
      (Order(norm)[i] == Av ==> d.coord[i] == 1 && d.fixed[i] == 0.0) &&
      (Order(norm)[i] != Av ==> d.coord[i] == start.coord[i] && d.fixed[i] == start.fixed[i])
  {
    AvIsSecondToLast(norm);
  }

  /**
    `_default_priors` as written: without a measured temperature it reads
    `teff_prior`, a name that is not defined, and raises `NameError`.
  */
  function DefaultPriorsAsWritten(star: Star, norm: bool, estimateLogg: bool, estimate: Estimator,
                                  log10: real -> real, start: PriorSetup): (r: Result<PriorSetup, Error>)
    requires |start.coord| == NPars(norm) && |start.fixed| == NPars(norm)
    requires estimateLogg ==> HasBands(star)
    ensures r.Failure? <==> !star.getTemp
    ensures r.Failure? ==> r.error == NameError("teff_prior")
    ensures r.Success? ==> Teff in r.value.priors && r.value.priors[Teff] == Some(Normal(star.temp, star.tempErr))
    // the undefined name is the only difference from the intended defaults
    ensures star.getTemp ==> r == Success(DefaultPriors(star, norm, estimateLogg, estimate, log10, start))
  {
    if !star.getTemp then Failure(NameError("teff_prior"))
    else
      DefaultPriorsPolicy(star, norm, estimateLogg, estimate, log10, start);
      Success(DefaultPriors(star, norm, estimateLogg, estimate, log10, start))
  }

  /** Every star without a measured temperature makes the written code fail where the intended one falls back to the table. */
  lemma TeffFallbackRaises(star: Star, norm: bool, estimateLogg: bool, estimate: Estimator,
                           log10: real -> real, start: PriorSetup)
    requires |start.coord| == NPars(norm) && |start.fixed| == NPars(norm)
    requires estimateLogg ==> HasBands(star)
    requires !star.getTemp
    ensures DefaultPriorsAsWritten(star, norm, estimateLogg, estimate, log10, start) == Failure(NameError("teff_prior"))
    ensures DefaultPriors(star, norm, estimateLogg, estimate, log10, start).priors[Teff] == Some(Table(TeffTable))
  {
  }
}

=== FILE: results.dfy ===
/**
  What a finished run leaves: the sampler's evidence and equally weighted
  samples (`multinest_results`, `dynesty_results`), and `save`, which walks
  the canonical order to assign each parameter its samples or its fixed
  value, the median best fit, the likelihood of every sample and of the best
  fit, and the lines of the best-fit log.
*/
module Results {
  import opened Params
  import opened Coordinator

  /** A sample table: one row per sample, `width` values per row. */
  predicate Rectangular(rows: seq<seq<real>>, width: nat) {
    forall k :: 0 <= k < |rows| ==> |rows[k]| == width
  }

  /** `samples[:, j]`. */
  function Column(rows: seq<seq<real>>, j: nat): (col: seq<real>)
    requires forall k :: 0 <= k < |rows| ==> j < |rows[k]|
    ensures |col| == |rows|
    ensures forall k :: 0 <= k < |rows| ==> col[k] == rows[k][j]
  {
    seq(|rows|, k requires 0 <= k < |rows| => rows[k][j])
  }

  /** `samples[:, :-1]`: every row without its last value. */
  function DropLastColumn(rows: seq<seq<real>>): (out: seq<seq<real>>)
    requires forall k :: 0 <= k < |rows| ==> 0 < |rows[k]|
    ensures |out| == |rows|
    ensures forall k :: 0 <= k < |rows| ==> out[k] + [rows[k][|rows[k]| - 1]] == rows[k]
  {
    seq(|rows|, k requires 0 <= k < |rows| => rows[k][..|rows[k]| - 1])
  }

  /** The evidence, its error and the equally weighted samples of a run. */
  datatype Summary = Summary(lnZ: real, lnZerr: real, samples: seq<seq<real>>)

  /**
    `multinest_results`: MultiNest's equally weighted posterior carries the
    log-likelihood as an extra last column, which is dropped; the evidence
    and its error come from the run's statistics.
  */
  function MultinestResults(equalWeighted: seq<seq<real>>, evidence: real, evidenceErr: real,
                            ndim: nat): (s: Summary)
    requires Rectangular(equalWeighted, ndim + 1)
    ensures s.lnZ == evidence && s.lnZerr == evidenceErr
    ensures Rectangular(s.samples, ndim) && |s.samples| == |equalWeighted|
    ensures forall j :: 0 <= j < ndim ==> Column(s.samples, j) == Column(equalWeighted, j)
  {
    var out := DropLastColumn(equalWeighted);
    assert Rectangular(out, ndim) by {
      forall k | 0 <= k < |out| ensures |out[k]| == ndim {
        assert |out[k] + [equalWeighted[k][ndim]]| == ndim + 1;
      }
    }
    assert forall j :: 0 <= j < ndim ==> Column(out, j) == Column(equalWeighted, j) by {
      forall j | 0 <= j < ndim ensures Column(out, j) == Column(equalWeighted, j) {
        forall k | 0 <= k < |out| ensures out[k][j] == equalWeighted[k][j] {
          assert (out[k] + [equalWeighted[k][ndim]])[j] == out[k][j];
        }
      }
    }
    Summary(evidence, evidenceErr, out)
  }

  /** `exp(logwt - logz[-1])`: the importance weights normalised by the final evidence. */
  function Weights(logwt: seq<real>, lnZ: real, exp: real -> real): (w: seq<real>)
    ensures |w| == |logwt|
    ensures forall k :: 0 <= k < |logwt| ==> w[k] == exp(logwt[k] - lnZ)
  {
    seq(|logwt|, k requires 0 <= k < |logwt| => exp(logwt[k] - lnZ))
  }

  /**
    `dynesty_results`: the evidence and its error are the last entries of
    their running sequences, and the weighted samples are resampled to equal
    weights with weights normalised by that final evidence.
  */
  function DynestyResults(samples: seq<seq<real>>, logwt: seq<real>, logz: seq<real>, logzerr: seq<real>,
                          exp: real -> real, resample: (seq<seq<real>>, seq<real>) -> seq<seq<real>>): (s: Summary)
    requires 0 < |logz| && 0 < |logzerr|
    ensures s.lnZ == logz[|logz| - 1] && s.lnZerr == logzerr[|logzerr| - 1]
    ensures s.samples == resample(samples, Weights(logwt, s.lnZ, exp))
  {
    var w := Weights(logwt, logz[|logz| - 1], exp);
    Summary(logz[|logz| - 1], logzerr[|logzerr| - 1], resample(samples, w))
  }

  /** What `save` stores for one parameter: its samples when free, its value when fixed. */
  datatype Posterior = Samples(values: seq<real>) | Constant(value: real)

  /** The shape `save` relies on: vectors over the order, one sample column per free slot. */
  predicate Compatible(order: seq<Param>, coord: seq<int>, fixed: seq<real>, samples: seq<seq<real>>) {
    && |coord| == |order|
    && |fixed| == |order|
    && Rectangular(samples, CountFree(coord))
  }

  /** The sample column a free slot reads: the one after the free slots before it. */
  function FreeColumn(samples: seq<seq<real>>, coord: seq<int>, i: nat): (col: seq<real>)
    requires i < |coord| && coord[i] == 0 && Rectangular(samples, CountFree(coord))
    ensures |col| == |samples|
    ensures FreeRank(coord, i) < CountFree(coord)
  {
    FreeRankBound(coord, i);
    Column(samples, FreeRank(coord, i))
  }

  /** The posterior entry of slot `i`. */
  function PosteriorOf(samples: seq<seq<real>>, coord: seq<int>, fixed: seq<real>, i: nat): Posterior
    requires i < |coord| == |fixed| && Rectangular(samples, CountFree(coord))
  {
    if coord[i] == 0 then Samples(FreeColumn(samples, coord, i)) else Constant(fixed[i])
  }

  /** The best-fit value of slot `i`: the median of its column when free, its value when fixed. */
  function BestOf(samples: seq<seq<real>>, coord: seq<int>, fixed: seq<real>, median: seq<real> -> real,
                  i: nat): real
    requires i < |coord| == |fixed| && Rectangular(samples, CountFree(coord))
  {
    if coord[i] == 0 then median(FreeColumn(samples, coord, i)) else fixed[i]
  }

  /** The median of every sample column, in column order. */
  function Medians(samples: seq<seq<real>>, n: nat, median: seq<real> -> real): (m: seq<real>)
    requires Rectangular(samples, n)
    ensures |m| == n
    ensures forall j :: 0 <= j < n ==> m[j] == median(Column(samples, j))
  {
    seq(n, j requires 0 <= j < n => median(Column(samples, j)))
  }

  const LogHeader: string := "Parameter\tmedian\tupper\tlower\n"

  /** The log line of a free parameter: name, median, upper and lower bound. */
  function FreeLine(p: Param, col: seq<real>, median: seq<real> -> real,
                    interval: seq<real> -> (real, real, real), fmt: real -> string): string
  {
    var (_, lo, up) := interval(col);
    Name(p) + "\t" + fmt(median(col)) + "\t" + fmt(up) + "\t" + fmt(lo) + "\n"
  }

  /** The log line of a fixed parameter: name, value and the word FIXED. */
  function FixedLine(p: Param, v: real, fmt: real -> string): string {
    Name(p) + "\t" + fmt(v) + "\t" + "FIXED\n"
  }

  /** The log line of slot `i`. */
  function LineOf(order: seq<Param>, samples: seq<seq<real>>, coord: seq<int>, fixed: seq<real>,
                  median: seq<real> -> real, interval: seq<real> -> (real, real, real),
                  fmt: real -> string, i: nat): string
    requires Compatible(order, coord, fixed, samples) && i < |order|
  {
    if coord[i] == 0 then FreeLine(order[i], FreeColumn(samples, coord, i), median, interval, fmt)
    else FixedLine(order[i], fixed[i], fmt)
  }

  /** The lines joined in order. */
  function Concat(lines: seq<string>): string {
    if |lines| == 0 then "" else Concat(lines[..|lines| - 1]) + lines[|lines| - 1]
  }

  lemma ConcatAppend(lines: seq<string>, line: string)
    ensures Concat(lines + [line]) == Concat(lines) + line
  {
    assert (lines + [line])[..|lines|] == lines;
  }

  /** What `save` writes to its output dictionary. */
  datatype Output = Output(
    lnZ: real,
    lnZerr: real,
    posterior: map<Param, Posterior>,
    loglike: seq<real>,
    fixed: seq<real>,
    coord: seq<int>,
    bestFit: map<Param, real>,
    likelihood: real,
    engine: string,
    norm: bool,
    grid: string)

  /**
    `save`'s first walk over the order: the posterior entry of every
    parameter. A running column index advances on free slots only; after the
    walk it has passed every sample column.
  */
  method PosteriorSamples(order: seq<Param>, coord: seq<int>, fixed: seq<real>, samples: seq<seq<real>>)
    returns (posterior: map<Param, Posterior>, used: nat)
    requires Distinct(order) && Compatible(order, coord, fixed, samples)
    ensures forall p :: p in posterior <==> p in order
    ensures forall i :: 0 <= i < |order| ==> posterior[order[i]] == PosteriorOf(samples, coord, fixed, i)
    ensures used == CountFree(coord)
  {
    posterior := map[];
    used := 0;
    var i := 0;
    while i < |order|
      invariant 0 <= i <= |order|
      invariant used == FreeRank(coord, i)
      invariant forall p :: p in posterior <==> p in order[..i]
      invariant forall t :: 0 <= t < i ==> posterior[order[t]] == PosteriorOf(samples, coord, fixed, t)
    {
      FreeRankStep(coord, i);
      var entry: Posterior;
      if coord[i] == 0 {
        FreeRankBound(coord, i);
        entry := Samples(Column(samples, used));
        used := used + 1;
      } else {
        entry := Constant(fixed[i]);
      }
      assert entry == PosteriorOf(samples, coord, fixed, i);
      assert forall t :: 0 <= t < i ==> order[t] != order[i];
      posterior := posterior[order[i] := entry];
      assert order[..i + 1] == order[..i] + [order[i]];
      i := i + 1;
    }
    assert order[..i] == order;
    FreeRankAll(coord);
  }

  /** The likelihood of every sample, evaluated on its full vector. */
  method SampleLikelihoods(coord: seq<int>, fixed: seq<real>, samples: seq<seq<real>>,
                           logLike: seq<real> -> real)
    returns (loglike: seq<real>)
    requires |coord| == |fixed| && Rectangular(samples, CountFree(coord))
    ensures |loglike| == |samples|
    ensures forall k :: 0 <= k < |samples| ==> loglike[k] == logLike(Expand(samples[k], coord, fixed))
  {
    loglike := [];
    var k := 0;
    while k < |samples|
      invariant 0 <= k <= |samples|
      invariant |loglike| == k
      invariant forall t :: 0 <= t < k ==> loglike[t] == logLike(Expand(samples[t], coord, fixed))
    {
      loglike := loglike + [logLike(Expand(samples[k], coord, fixed))];
      k := k + 1;
    }
  }

  /**
    `save`'s second walk over the order: the best fit of every parameter and
    the full best-fit vector. The walk keeps a running column index that
    advances on free slots only.
  */
  method BestFit(order: seq<Param>, coord: seq<int>, fixed: seq<real>, samples: seq<seq<real>>,
                 median: seq<real> -> real)
    returns (bestFit: map<Param, real>, bestTheta: seq<real>)
    requires Distinct(order) && Compatible(order, coord, fixed, samples)
    ensures forall p :: p in bestFit <==> p in order
    ensures |bestTheta| == |order|
    ensures forall i :: 0 <= i < |order| ==> bestTheta[i] == BestOf(samples, coord, fixed, median, i)
    ensures forall i :: 0 <= i < |order| ==> bestFit[order[i]] == bestTheta[i]
  {
    bestFit := map[];
    bestTheta := [];
    var j := 0;
    var i := 0;
    while i < |order|
      invariant 0 <= i <= |order|
      invariant j == FreeRank(coord, i)
      invariant |bestTheta| == i
      invariant forall p :: p in bestFit <==> p in order[..i]
      invariant forall t :: 0 <= t < i ==> bestTheta[t] == BestOf(samples, coord, fixed, median, t)
      invariant forall t :: 0 <= t < i ==> bestFit[order[t]] == bestTheta[t]
    {
      FreeRankStep(coord, i);
      var v: real;
      if coord[i] == 0 {
        FreeRankBound(coord, i);
        v := median(Column(samples, j));
        j := j + 1;
      } else {
        v := fixed[i];
      }
      assert v == BestOf(samples, coord, fixed, median, i);
      assert forall t :: 0 <= t < i ==> order[t] != order[i];
      bestFit := bestFit[order[i] := v];
      bestTheta := bestTheta + [v];
      assert order[..i + 1] == order[..i] + [order[i]];
      i := i + 1;
    }
    assert order[..i] == order;
  }

  /**
    The best-fit log written during the same walk: the header, then per
    parameter its name and median with the upper and lower bound of its
    credibility interval, or its fixed value and the word FIXED.
  */
  method LogLines(order: seq<Param>, coord: seq<int>, fixed: seq<real>, samples: seq<seq<real>>,
                  median: seq<real> -> real, interval: seq<real> -> (real, real, real), fmt: real -> string)
    returns (lines: seq<string>, log: string)
    requires Compatible(order, coord, fixed, samples)
    ensures |lines| == |order|
    ensures forall i :: 0 <= i < |order| ==> lines[i] == LineOf(order, samples, coord, fixed, median, interval, fmt, i)
    ensures log == LogHeader + Concat(lines)
  {
    lines := [];
    var body := "";
    var j := 0;
    var i := 0;
    while i < |order|
      invariant 0 <= i <= |order|
      invariant j == FreeRank(coord, i)
      invariant |lines| == i
      invariant forall t :: 0 <= t < i ==> lines[t] == LineOf(order, samples, coord, fixed, median, interval, fmt, t)
      invariant body == Concat(lines)
    {
      FreeRankStep(coord, i);
      var line: string;
      if coord[i] == 0 {
        FreeRankBound(coord, i);
        var col := Column(samples, j);
        assert col == FreeColumn(samples, coord, i);
        line := FreeLine(order[i], col, median, interval, fmt);
        j := j + 1;
      } else {
        line := FixedLine(order[i], fixed[i], fmt);
      }
      assert line == LineOf(order, samples, coord, fixed, median, interval, fmt, i);
      ConcatAppend(lines, line);
      lines := lines + [line];
      body := body + line;
      i := i + 1;
    }
    log := LogHeader + body;
  }

  /** The best-fit vector is the expansion of the column medians. */
  lemma BestThetaExpandsMedians(order: seq<Param>, coord: seq<int>, fixed: seq<real>, samples: seq<seq<real>>,
                                median: seq<real> -> real, bestTheta: seq<real>)
    requires Compatible(order, coord, fixed, samples) && |bestTheta| == |order|
    requires forall i :: 0 <= i < |order| ==> bestTheta[i] == BestOf(samples, coord, fixed, median, i)
    ensures bestTheta == Expand(Medians(samples, CountFree(coord), median), coord, fixed)
  {
    var meds := Medians(samples, CountFree(coord), median);
    forall t | 0 <= t < |order| ensures Expand(meds, coord, fixed)[t] == bestTheta[t] {
      if coord[t] == 0 {
        ExpandFreeSlot(meds, coord, fixed, t);
      }
    }
  }

  /**
    `save`. The likelihood is the foreign `log_likelihood` closed over the
    star and the interpolators; median, credibility interval and number
    formatting are foreign as well.
  */
  method Save(summary: Summary, order: seq<Param>, coord: seq<int>, fixed: seq<real>, norm: bool,
              engine: string, grid: string, logLike: seq<real> -> real, median: seq<real> -> real,
              interval: seq<real> -> (real, real, real), fmt: real -> string)
    returns (out: Output, bestTheta: seq<real>, lines: seq<string>, log: string)
    requires Distinct(order) && Compatible(order, coord, fixed, summary.samples)
    ensures out.lnZ == summary.lnZ && out.lnZerr == summary.lnZerr
    ensures out.fixed == fixed && out.coord == coord && out.engine == engine && out.norm == norm && out.grid == grid
    // every parameter of the order gets its samples or its fixed value, and nothing else is stored
    ensures forall p :: p in out.posterior <==> p in order
    ensures forall i :: 0 <= i < |order| ==> out.posterior[order[i]] == PosteriorOf(summary.samples, coord, fixed, i)
    // the likelihood of every sample, evaluated on its full vector
    ensures |out.loglike| == |summary.samples|
    ensures forall k :: 0 <= k < |summary.samples| ==>
      out.loglike[k] == logLike(Expand(summary.samples[k], coord, fixed))
    // the best fit: medians for free parameters, fixed values otherwise
    ensures forall p :: p in out.bestFit <==> p in order
    ensures |bestTheta| == |order|
    ensures forall i :: 0 <= i < |order| ==>
      out.bestFit[order[i]] == bestTheta[i] == BestOf(summary.samples, coord, fixed, median, i)
    ensures bestTheta == Expand(Medians(summary.samples, CountFree(coord), median), coord, fixed)
    ensures out.likelihood == logLike(bestTheta)
    // the log: the header, then one line per parameter in order
    ensures |lines| == |order| && log == LogHeader + Concat(lines)
    ensures forall i :: 0 <= i < |order| ==>
      lines[i] == LineOf(order, summary.samples, coord, fixed, median, interval, fmt, i)
  {
    var posterior, used := PosteriorSamples(order, coord, fixed, summary.samples);
    var loglike := SampleLikelihoods(coord, fixed, summary.samples, logLike);
    var bestFit;
    bestFit, bestTheta := BestFit(order, coord, fixed, summary.samples, median);
    lines, log := LogLines(order, coord, fixed, summary.samples, median, interval, fmt);
    BestThetaExpandsMedians(order, coord, fixed, summary.samples, median, bestTheta);
    out := Output(summary.lnZ, summary.lnZerr, posterior, loglike, fixed, coord, bestFit,
                  logLike(bestTheta), engine, norm, grid);
  }

  /** The free values of the best-fit vector are the column medians, in column order. */
  lemma BestFitFreeValuesAreMedians(samples: seq<seq<real>>, coord: seq<int>, fixed: seq<real>,
                                    median: seq<real> -> real)
    requires |coord| == |fixed| && Rectangular(samples, CountFree(coord))
    ensures Extract(Expand(Medians(samples, CountFree(coord), median), coord, fixed), coord) ==
      Medians(samples, CountFree(coord), median)
  {
    ExtractExpand(Medians(samples, CountFree(coord), median), coord, fixed);
  }

  /** A fixed parameter's log line ends with the word FIXED; a free one's ends with its lower bound. */
  lemma LogLineEndings(order: seq<Param>, samples: seq<seq<real>>, coord: seq<int>, fixed: seq<real>,
                       median: seq<real> -> real, interval: seq<real> -> (real, real, real),
                       fmt: real -> string, i: nat)
    requires Compatible(order, coord, fixed, samples) && i < |order|
    ensures var line := LineOf(order, samples, coord, fixed, median, interval, fmt, i);
      && |line| >= |Name(order[i])| + 1
      && line[..|Name(order[i])| + 1] == Name(order[i]) + "\t"
      && (coord[i] != 0 ==> line[|line| - 6..] == "FIXED\n")
      && (coord[i] == 0 ==>
          var lo := interval(FreeColumn(samples, coord, i)).1;
          line[|line| - |fmt(lo)| - 1..] == fmt(lo) + "\n")
  {
    var name := Name(order[i]);
    var line := LineOf(order, samples, coord, fixed, median, interval, fmt, i);
    if coord[i] != 0 {
      var v := fmt(fixed[i]);
      assert line == (name + "\t") + (v + "\t" + "FIXED\n");
    } else {
      var col := FreeColumn(samples, coord, i);
      var (_, lo, up) := interval(col);
      var head := name + "\t" + fmt(median(col)) + "\t" + fmt(up) + "\t";
      assert line == head + (fmt(lo) + "\n");
      assert head == (name + "\t") + (fmt(median(col)) + "\t" + fmt(up) + "\t");
    }
  }
}

=== FILE: setup.dfy ===
/**
  The fitter's engine configuration: the positional `setup` list, the
  `norm` flag setter, and the choice of sampler made by `fit`.
*/
module Setup {
  import opened Wrappers
  import opened Errors

  /** One entry of the untyped positional setup list. */
  datatype Value = Word(s: string) | Int(i: int) | Real(r: real) | Flag(b: bool)

  const MultiNestEngine: Value := Word("multinest")
  const DynestyEngine: Value := Word("dynesty")

  const SetupMessage: string := "The setup has to contain at least the fitting engine, multinest or dynesty."

  /**
    The engine attributes a fitter carries. The setup setter overwrites only
    the attributes of the engine it names, so the others keep their earlier
    values.
  */
  datatype EngineSettings = EngineSettings(
    raw: seq<Value>,
    engine: Value,
    nlive: Value,
    dlogz: Value,
    bound: Value,
    sample: Value,
    threads: Value,
    dynamic: Value)

  /** Defaults taken when the setup names only the engine. */
  const DefaultNLive: Value := Int(500)
  const DefaultDLogZ: Value := Real(0.5)
  const DefaultBound: Value := Word("multi")
  const DefaultSample: Value := Word("rwalk")
  const DefaultThreads: Value := Int(1)
  const DefaultDynamic: Value := Flag(false)

  /** The number of entries a non-default setup must supply: engine plus 2 (multinest) or 6 (dynesty). */
  function Needed(engine: Value): nat {
    if engine == MultiNestEngine then 3 else if engine == DynestyEngine then 7 else 1
  }

  /** The `setup` setter applied to a fitter whose engine attributes are `prev`. */
  function SetSetup(prev: EngineSettings, setup: seq<Value>): (r: Result<EngineSettings, Error>)
    ensures |setup| == 0 <==> r == Failure(InputError(SetupMessage))
    ensures r.Failure? <==> |setup| == 0 || 1 < |setup| < Needed(setup[0])
    ensures r.Failure? && |setup| > 0 ==> r.error == IndexError(|setup|)
    ensures r.Success? ==> r.value.raw == setup && r.value.engine == setup[0]
    // one-entry setups take the defaults
    ensures r.Success? && |setup| == 1 && setup[0] == MultiNestEngine ==>
      r.value.nlive == DefaultNLive && r.value.dlogz == DefaultDLogZ
    ensures r.Success? && |setup| == 1 && setup[0] == DynestyEngine ==>
      r.value.nlive == DefaultNLive && r.value.dlogz == DefaultDLogZ &&
      r.value.bound == DefaultBound && r.value.sample == DefaultSample &&
      r.value.threads == DefaultThreads && r.value.dynamic == DefaultDynamic
    // longer setups are read by position
    ensures r.Success? && |setup| > 1 && setup[0] == MultiNestEngine ==>
      r.value.nlive == setup[1] && r.value.dlogz == setup[2]
    ensures r.Success? && |setup| > 1 && setup[0] == DynestyEngine ==>
      r.value.nlive == setup[1] && r.value.dlogz == setup[2] && r.value.bound == setup[3] &&
      r.value.sample == setup[4] && r.value.threads == setup[5] && r.value.dynamic == setup[6]
    // multinest leaves the dynesty-only attributes alone; other engines leave all of them alone
    ensures r.Success? && setup[0] != DynestyEngine ==>
      r.value.bound == prev.bound && r.value.sample == prev.sample &&
      r.value.threads == prev.threads && r.value.dynamic == prev.dynamic
    ensures r.Success? && setup[0] != DynestyEngine && setup[0] != MultiNestEngine ==>
      r.value.nlive == prev.nlive && r.value.dlogz == prev.dlogz
  {
    if |setup| < 1 then Failure(InputError(SetupMessage))
    else
      var s := prev.(raw := setup, engine := setup[0]);
      var defaults := |setup| == 1;
      if setup[0] == MultiNestEngine then
        if defaults then Success(s.(nlive := DefaultNLive, dlogz := DefaultDLogZ))
        else if |setup| < 3 then Failure(IndexError(|setup|))
        else Success(s.(nlive := setup[1], dlogz := setup[2]))
      else if setup[0] == DynestyEngine then
        if defaults then
          Success(s.(nlive := DefaultNLive, dlogz := DefaultDLogZ, bound := DefaultBound,
                     sample := DefaultSample, threads := DefaultThreads, dynamic := DefaultDynamic))
        else if |setup| < 7 then Failure(IndexError(|setup|))
        else
          Success(s.(nlive := setup[1], dlogz := setup[2], bound := setup[3],
                     sample := setup[4], threads := setup[5], dynamic := setup[6]))
      else Success(s)
  }

  /** The engine attributes of a newly constructed fitter, whose setup is `['dynesty']`. */
  const Initial: EngineSettings := EngineSettings(
    [DynestyEngine], DynestyEngine, DefaultNLive, DefaultDLogZ,
    DefaultBound, DefaultSample, DefaultThreads, DefaultDynamic)

  /** Setting `['dynesty']` reaches the constructor's state from any earlier state. */
  lemma ConstructorSetup(prev: EngineSettings)
    ensures SetSetup(prev, [DynestyEngine]) == Success(Initial)
  {
  }

  /** The sampler run `fit` starts, with the arguments it passes. */
  datatype Run =
    | MultiNestRun(nDims: nat, nParams: nat, samplingEfficiency: real, evidenceTolerance: Value,
                   nLivePoints: Value, basename: string, maxModes: nat, resume: bool)
    | DynestyRun(ndim: nat, nlive: Value, dlogz: Value, bound: Value, sample: Value,
                 threads: Value, dynamic: Value)

  /** The `fit` dispatch: MultiNest when the engine is `'multinest'`, dynesty for anything else. */
  function Dispatch(s: EngineSettings, ndim: nat, outFolder: string): (run: Run)
    ensures run.MultiNestRun? <==> s.engine == MultiNestEngine
    ensures run.MultiNestRun? ==>
      run.nDims == ndim && run.nParams == ndim && run.evidenceTolerance == s.dlogz &&
      run.nLivePoints == s.nlive && run.samplingEfficiency == 0.8 && run.maxModes == 100 &&
      !run.resume && run.basename == outFolder + "multinest/chains"
    ensures run.DynestyRun? ==>
      run.ndim == ndim && run.nlive == s.nlive && run.dlogz == s.dlogz && run.bound == s.bound &&
      run.sample == s.sample && run.threads == s.threads && run.dynamic == s.dynamic
  {
    if s.engine == MultiNestEngine then
      MultiNestRun(ndim, ndim, 0.8, s.dlogz, s.nlive, outFolder + "multinest/" + "chains", 100, false)
    else
      DynestyRun(ndim, s.nlive, s.dlogz, s.bound, s.sample, s.threads, s.dynamic)
  }

  /** A single-entry setup naming an unknown engine still runs dynesty, with the constructor's settings. */
  lemma UnknownEngineRunsDynesty(name: string, ndim: nat, outFolder: string)
    requires name != "multinest" && name != "dynesty"
    ensures SetSetup(Initial, [Word(name)]).Success?
    ensures Dispatch(SetSetup(Initial, [Word(name)]).value, ndim, outFolder) ==
      DynestyRun(ndim, DefaultNLive, DefaultDLogZ, DefaultBound, DefaultSample, DefaultThreads, DefaultDynamic)
  {
  }

  const NormMessage: string := "norm must be True or False."

  /** The `norm` setter as intended: a non-boolean value raises `InputError`. */
  function SetNorm(v: Value): (r: Result<bool, Error>)
    ensures r.Success? <==> v.Flag?
    ensures r.Success? ==> r.value == v.b
    ensures r.Failure? ==> r.error == InputError(NormMessage)
  {
    if v.Flag? then Success(v.b) else Failure(InputError(NormMessage))
  }

  /**
    The `norm` setter as written: its error branch calls `rInputError`, a
    name that is not defined, so a non-boolean value raises `NameError`.
  */
  function SetNormAsWritten(v: Value): (r: Result<bool, Error>)
    ensures r.Success? <==> v.Flag?
    ensures r.Success? ==> r.value == v.b
    ensures r.Failure? ==> r.error == NameError("rInputError")
  {
    if v.Flag? then Success(v.b) else Failure(NameError("rInputError"))
  }

  /** The two setters agree on booleans and disagree on every other value. */
  lemma NormSetterMisnamedError(v: Value)
    ensures v.Flag? ==> SetNormAsWritten(v) == SetNorm(v)
    ensures !v.Flag? ==> SetNormAsWritten(v).Failure? && SetNormAsWritten(v) != SetNorm(v)
  {
  }
}

=== FILE: text.dfy ===
/**
  String helpers the prior-file reader relies on: `str.lower` for the
  case-insensitive prior kind, and `str.split(',')` for the bounds column.
  Lower-casing is modelled for ASCII letters only.
*/
module Text {

  function LowerChar(c: char): char {
    if 'A' <= c <= 'Z' then (c as int + 32) as char else c
  }

  predicate IsLowerChar(c: char) {
    !('A' <= c <= 'Z')
  }

  /** `s.lower()`: every upper-case ASCII letter is mapped to its lower-case form. */
  function Lower(s: string): (r: string)
    ensures |r| == |s|
    ensures forall i :: 0 <= i < |s| ==> r[i] == LowerChar(s[i])
    ensures forall i :: 0 <= i < |s| ==> IsLowerChar(r[i])
  {
    if |s| == 0 then "" else [LowerChar(s[0])] + Lower(s[1..])
  }

  /** Lower-casing twice is lower-casing once. */
  lemma LowerIdempotent(s: string)
    ensures Lower(Lower(s)) == Lower(s)
  {
  }

  /** A string with no upper-case letter is its own lower-case form. */
  lemma LowerOfLower(s: string)
    requires forall i :: 0 <= i < |s| ==> IsLowerChar(s[i])
    ensures Lower(s) == s
  {
  }

  /** Number of occurrences of `c` in `s`. */
  function Occurrences(s: string, c: char): nat {
    if |s| == 0 then 0 else (if s[0] == c then 1 else 0) + Occurrences(s[1..], c)
  }

  /**
    `s.split(sep)` for a one-character separator: the pieces between
    separators, including empty ones; the empty string splits into one empty
    piece.
  */
  function Split(s: string, sep: char): (parts: seq<string>)
    ensures |parts| >= 1
    ensures forall k :: 0 <= k < |parts| ==> sep !in parts[k]
    decreases |s|
  {
    if |s| == 0 then [""]
    else
      var rest := Split(s[1..], sep);
      if s[0] == sep then [""] + rest
      else [[s[0]] + rest[0]] + rest[1..]
  }

  /** `sep.join(parts)`. */
  function Join(parts: seq<string>, sep: char): string
    requires |parts| >= 1
    decreases |parts|
  {
    if |parts| == 1 then parts[0] else parts[0] + [sep] + Join(parts[1..], sep)
  }

  /** Joining the pieces of a split gives back the original string. */
  lemma {:induction false} JoinSplit(s: string, sep: char)
    ensures Join(Split(s, sep), sep) == s
    decreases |s|
  {
    if |s| == 0 {
    } else {
      var rest := Split(s[1..], sep);
      JoinSplit(s[1..], sep);
      if s[0] == sep {
        assert Split(s, sep) == [""] + rest;
        assert ([""] + rest)[1..] == rest;
      } else {
        var parts := [[s[0]] + rest[0]] + rest[1..];
        assert Split(s, sep) == parts;
        if |rest| == 1 {
          assert Join(parts, sep) == [s[0]] + rest[0];
        } else {
          assert parts[1..] == rest[1..];
          assert Join(rest, sep) == rest[0] + [sep] + Join(rest[1..], sep);
          assert Join(parts, sep) == [s[0]] + rest[0] + [sep] + Join(rest[1..], sep);
        }
        assert s == [s[0]] + s[1..];
      }
    }
  }

  /** A string splits into one more piece than it has separators. */
  lemma {:induction false} SplitCount(s: string, sep: char)
    ensures |Split(s, sep)| == Occurrences(s, sep) + 1
    decreases |s|
  {
    if |s| > 0 {
      SplitCount(s[1..], sep);
    }
  }

  /** Splitting a piece-free prefix glued onto `t` extends the first piece of `t`. */
  lemma {:induction false} SplitPrefix(p: string, t: string, sep: char)
    requires sep !in p
    ensures Split(p + t, sep) == [p + Split(t, sep)[0]] + Split(t, sep)[1..]
    decreases |p|
  {
    if |p| > 0 {
      assert (p + t)[1..] == p[1..] + t;
      assert (p + t)[0] == p[0];
      SplitPrefix(p[1..], t, sep);
      assert [p[0]] + (p[1..] + Split(t, sep)[0]) == p + Split(t, sep)[0];
    } else {
      var parts := Split(t, sep);
      assert p + t == t && p + parts[0] == parts[0];
      assert parts == [parts[0]] + parts[1..];
    }
  }

  /** Splitting a join of separator-free pieces gives back the pieces. */
  lemma {:induction false} SplitJoin(parts: seq<string>, sep: char)
    requires |parts| >= 1
    requires forall k :: 0 <= k < |parts| ==> sep !in parts[k]
    ensures Split(Join(parts, sep), sep) == parts
    decreases |parts|
  {
    if |parts| == 1 {
      SplitPrefix(parts[0], "", sep);
      assert parts[0] + "" == parts[0];
    } else {
      var tail := Join(parts[1..], sep);
      SplitJoin(parts[1..], sep);
      assert Join(parts, sep) == parts[0] + ([sep] + tail);
      SplitPrefix(parts[0], [sep] + tail, sep);
      assert ([sep] + tail)[1..] == tail;
      assert Split([sep] + tail, sep) == [""] + parts[1..];
      assert parts[0] + "" == parts[0];
      assert parts == [parts[0]] + parts[1..];
    }
  }
}

=== FILE: wrappers.dfy ===
/** Option and Result, the failure-carrying shapes used throughout the model. */
module Wrappers {

  datatype Option<+T> = None | Some(value: T)

  /** Either a value or the exception the fitter would raise. Usable with `:-`. */
  datatype Result<+T, +E> = Success(value: T) | Failure(error: E) {

    predicate IsFailure() {
      Failure?
    }

    function PropagateFailure<U>(): Result<U, E>
      requires Failure?
    {
      Failure(error)
    }

    function Extract(): T
      requires Success?
    {
      value
    }
  }
}

/** The exceptions the fitter raises, named as the fitter names them. */
module Errors {

  datatype Error =
    | InputError(reason: string)
      /** `PriorError(par, 0)`: unknown parameter; `PriorError(par, 1)`: parameter absent in this mode. */
    | PriorError(name: string, code: nat)
      /** `ValueError`: `name` names what was being converted or unpacked, a parameter or the unpacking targets. */
    | ValueError(name: string)
    | ZeroDivisionError(name: string)
    | KeyError(name: string)
    | IndexError(index: nat)
      /** A reference to a name that is not defined. */
    | NameError(ident: string)
}
